=== FILE: README.md ===
# reargs in Dafny

A model of the `Reargs` class of reargs (`lib/reargs.mjs`), a command-line argument
parser driven by regular-expression rules. Rules are registered under an id. Each rule has:

- a `short` and/or a `long` form, given as a string or as an expression;
- optionally a `captureMultiple` expression;
- a group, default values, and `multiple` and `stopParse` flags.

`parse(tokens)` joins the tokens with a separator. It then works on that one string:

1. Stop rules are searched first. The leftmost match among them cuts the string, and
   what follows the match becomes `remain`.
2. Every other rule is then tried in turn at index 0. Its matched text is removed.
3. The string is trimmed. The passes repeat until the string stops changing, and what
   is left is returned.

The answers sit in `askfor`. The accessors `getValue`, `getGroupValues` and `getAllValues`
read them. `set` also builds the help display strings, grouped and aligned; the `padEnd`
help filter pads them.

The files:

- `common.dfy` (module `Common`): the string built-ins the class relies on. These are
  `join`, `split`, a first-occurrence `replace`, `trim` and line splitting.
- `patterns.dfy` (`Patterns`): the regular expressions the rules use, as flat
  sequences of atoms. It also holds a leftmost-match engine `Greedy` and the predicate
  `Sound`, which is all the parsing engine assumes of an engine.
- `registry.dfy` (`Registry`): what `set` and `setup` do to the registry, as functions.
  It also holds the display strings and the `padEnd` filter.
- `engine.dfy` (`Engine`): what `reset`, `__checkArg` and `parse` compute, as functions.
- `instance.dfy` (`Instance`): the class `Reargs`. Its fields are the ones the source
  updates. Its methods change them with the same loops as the source, and each method
  is proved to leave exactly the state the `Registry`/`Engine` functions describe.
- `accessors.dfy` (`Accessors`): `getValue`, `getGroupValues` and `getAllValues`.
- `parse_properties.dfy` (`ParseProperties`): properties of `parse` and of one rule
  check.
- `scenarios.dfy` (`Scenarios`): `parse` worked through for a registry holding one
  long flag. This includes the command line `list foo api`, which leaves `foo api`.

Where the source's own comments and its code differ, the model follows the code:

- The comments at `lib/reargs.mjs:396-397` and `lib/reargs.mjs:415` say that under
  `exitOnStop` the answers hold "only this stopping parameter evaluated". The code keeps
  the snapshot taken when the leftmost stop rule matched. That snapshot also holds the
  answers of stop rules checked, in key order, after the previous snapshot and before the
  winner. Every rule other than a stop rule does hold its reset answer
  (`ParseProperties.ParseExitSnapshot`).
- The comment at `lib/reargs.mjs:469-470` says `getValue` returns `null` when the capture
  group name does not exist. The code returns `null` for a key asked of a flag value, and
  `undefined` for a map value that lacks the key.

## Model

| member | source | states |
|---|---|---|
| Common.Repeat | lib/reargs.mjs:36-37 | the padding `padStart`/`padEnd` add is exactly `n` copies of the fill character |
| Common.SplitJoin | lib/reargs.mjs:373 | joining tokens that do not contain the separator loses nothing: splitting the joined text gives the tokens back |
| Common.SplitNoSep | lib/reargs.mjs:373 | a text without the separator splits into itself alone |
| Common.SplitAppend | lib/reargs.mjs:373 | splitting a text that starts with a separator-free part gives that part first, then the split of the rest |
| Common.FindFrom | lib/reargs.mjs:442 | the search for the text to remove finds its first occurrence at or after the start, and no earlier one exists; none means it occurs nowhere |
| Common.ReplaceFirst | lib/reargs.mjs:442 | removing the matched text never lengthens the string, and leaves it equal when the length stays the same |
| Common.ReplaceFirstPrefix | lib/reargs.mjs:442 | when the text to remove is a prefix, what is left is the suffix after it |
| Common.TrimStart | lib/reargs.mjs:449 | the result is a suffix of the input, does not start with the separator, and only separators were dropped |
| Common.TrimEnd | lib/reargs.mjs:449 | the result is a prefix of the input, does not end with the separator, and only separators were dropped |
| Common.Trim | lib/reargs.mjs:449 | the trimmed text is no longer than the input, equal when the length stays the same, and neither starts nor ends with the separator |
| Common.TrimIdempotent | lib/reargs.mjs:449 | trimming twice is trimming once |
| Common.TrimClean | lib/reargs.mjs:449 | a text that neither starts nor ends with the separator is left as it is |
| Common.Join | lib/reargs.mjs:373 | `args.join(' ')`; it has no contract of its own: `SplitJoin` states that it loses nothing, `JoinEnds` that joined clean tokens give clean ends |
| Common.JoinEnds | lib/reargs.mjs:373 | joining non-empty, separator-free tokens gives a non-empty text that neither starts nor ends with the separator |
| Common.IndexOf | lib/reargs.mjs:29 | the position returned is that of the first newline, or the length when there is none |
| Common.FirstLine | lib/reargs.mjs:29-30 | `split('\n')[0]` is a newline-free prefix of the text |
| Common.SecondLine | lib/reargs.mjs:32-34 | `split('\n')[1]` exists exactly when the text holds a newline, and holds no newline itself |
| Patterns.MatchAtom | lib/reargs.mjs:277 | one atom matches forward inside the text, consumes a character when it must, and captures exactly its own group names |
| Patterns.MatchSeq | lib/reargs.mjs:277 | a pattern match ends inside the text and past its start when the pattern cannot match the empty string |
| Patterns.MatchSeqNames | lib/reargs.mjs:293 | a successful match captures exactly the pattern's group names, in order |
| Patterns.MatchSeqAppend | lib/reargs.mjs:277 | matching a concatenation is matching the first part, then the second from where the first ended |
| Patterns.ExecFrom | lib/reargs.mjs:277 | a match found from a start index lies in the text, at or after that index; its text is the span the pattern covers there, and its captures are the ones it makes there |
| Patterns.ExecFromLeftmost | lib/reargs.mjs:277 | the match found is the leftmost from the start index, and when none is found the pattern matches nowhere from there on |
| Patterns.Exec | lib/reargs.mjs:277 | `exec` returns the leftmost match, lying inside the text and non-empty for a consuming pattern; no match means none at any index |
| Patterns.Greedy | lib/reargs.mjs:277 | the `exec` of this model; it has no contract of its own: `GreedySound` states that it meets what the parser assumes, and `Exec` that it returns the leftmost match |
| Patterns.GreedySound | lib/reargs.mjs:277 | the engine of this model meets everything the parser assumes of `exec` |
| Patterns.LitPattern | lib/reargs.mjs:161 | a plain word as a pattern is one literal atom per character |
| Patterns.MatchLiteral | lib/reargs.mjs:161 | a word's pattern matches exactly where the word occurs, spanning it |
| Patterns.LiteralMatchOccurs | lib/reargs.mjs:161 | conversely, a word's pattern matches only where the word occurs |
| Patterns.WrappedLiteralAt | lib/reargs.mjs:161 | `\s*w(\s\|$)` on a text that starts with `w` succeeds exactly when a separator or the end follows `w` |
| Patterns.ExecAtZero | lib/reargs.mjs:277 | a pattern that matches at index 0 makes `exec` return that match |
| Patterns.WrappedFlagAt | lib/reargs.mjs:161 | a text starting with the word `w` then a separator or the end makes `\s*w(\s\|$)` match `w` with that separator at index 0 |
| Patterns.FlagMatchesLeadingToken | lib/reargs.mjs:161 | for a leading token `w` followed by more tokens, `exec` matches `w` and one separator at index 0 |
| Patterns.FlagMatchesWholeText | lib/reargs.mjs:161 | a text that is just `w` is matched whole |
| Patterns.AbsentFirstChar | lib/reargs.mjs:161 | a word whose first character does not occur in a text occurs nowhere in it |
| Patterns.AbsentWordNoMatch | lib/reargs.mjs:161 | `\s*w(\s\|$)` never matches a text in which `w` does not occur |
| Registry.DeleteChar | lib/reargs.mjs:170 | `replace(/\//g, '')` leaves only characters of the input, and no slash |
| Registry.DeleteCharAppend | lib/reargs.mjs:170 | deleting works piecewise: the kept characters of the first part, in order, then those of the second |
| Registry.DeleteCharOne | lib/reargs.mjs:170 | one character is dropped exactly when it is the deleted one; with `DeleteCharAppend` this fixes the result for every text |
| Registry.DeleteAbsent | lib/reargs.mjs:170 | it changes nothing in a text without slashes |
| Registry.HumanReadable | lib/reargs.mjs:170 | a display text holds no slash; how groups and other text are shown is stated by `HumanReadableGroup` and `HumanReadablePlain` |
| Registry.ReplaceCaptures | lib/reargs.mjs:170 | replacing the groups never lengthens the text; its content is stated by `ReplaceCapturesStep`, `ReplaceCapturesPrefix` and `ReplaceCapturesGroup` |
| Registry.ReplaceCapturesStep | lib/reargs.mjs:170 | a character that does not open a named group is kept, and the rest is processed in turn: any character other than `(`, and a `(` not followed by `?<` |
| Registry.ReplaceCapturesPrefix | lib/reargs.mjs:170 | a prefix without groups is kept as it is |
| Registry.ReplaceCapturesPlain | lib/reargs.mjs:170 | a text in which no `(?<` occurs is kept as it is, plain parentheses included |
| Registry.HumanReadablePlain | lib/reargs.mjs:170 | a form without named groups or slashes is displayed as written, plain parentheses included |
| Registry.OptionalPartsDisplay | lib/reargs.mjs:170 | the forms `sh(ell)?` and `-[-]?d(ebug)?` are displayed as written |
| Registry.ReplaceCapturesGroup | lib/reargs.mjs:170 | a leading `(?<name>body)` is displayed as `<name>`, and the rest is processed in turn |
| Registry.TagKeepsSlashes | lib/reargs.mjs:170 | deleting slashes leaves a `<name>` tag as it is |
| Registry.HumanReadableGroup | lib/reargs.mjs:170 | a form with a named group after a group-free prefix displays as the prefix without slashes, then `<name>`, then the display of the rest |
| Registry.JoinDisplays | lib/reargs.mjs:184 | one display text is shown alone; two are the first, then the delimiter, then the second |
| Registry.Display | lib/reargs.mjs:183-189 | a rule without a short form is indented by `alignLongIfNoShort` spaces; a given `humanReadable` is kept as is when there is a short form; the exact text in the other cases is stated by `TwoFormDisplay`, `ShortOnlyDisplay`, `LongOnlyDisplay` and `LongOnlyGiven` |
| Registry.TwoFormDisplay | lib/reargs.mjs:170-189 | a rule with both forms and no display text of its own shows the short form's display, the delimiter, then the long form's |
| Registry.ShortOnlyDisplay | lib/reargs.mjs:170-189 | a rule with only a short form and no display text of its own shows that form's display |
| Registry.LongOnlyGiven | lib/reargs.mjs:183-189 | a long-only rule with its own display text shows it after exactly `alignLongIfNoShort` spaces |
| Registry.LongOnlyDisplay | lib/reargs.mjs:170-189 | a long-only rule without its own display text shows the indented display of its long form |
| Registry.CompileForm | lib/reargs.mjs:153-168 | a form is kept exactly when it is a string or an expression; a string becomes `\s*form(\s\|$)`, or the bare form when `captureMultiple` is an expression |
| Registry.Normalize | lib/reargs.mjs:117-197 | a definition is accepted exactly when it has a form and each form is a string or an expression; the error names a missing form, or else the first unsupported one, short before long; an accepted rule has exactly the forms given, each compiled by `CompileForm`, the display text `Display` gives, and group `_` when none is given |
| Registry.MaxLineLength | lib/reargs.mjs:207-211 | the width used for alignment is the longer of the first two lines of the display text |
| Registry.AddMember | lib/reargs.mjs:199-216 | the entry is appended to the group; the padding never shrinks, stays when it already covers the entry, and otherwise becomes exactly one past the entry's width; a group whose padding covered all its members still does |
| Registry.PadEnd | lib/reargs.mjs:28-38 | the `padEnd` filter output is the prepadding spaces, then the text, then fill characters only; its length makes the last line `padding + 1` wide |
| Registry.PadEndAligns | lib/reargs.mjs:22-38 | every one-line display entry of a group comes out of the help filter with the same width |
| Registry.PadEndTwoLines | lib/reargs.mjs:28-38 | a two-line display is padded after its second line, up to the group's padding plus one |
| Registry.EmptyValid | lib/reargs.mjs:63-65 | a new instance's empty registry is well formed |
| Registry.SetSpec | lib/reargs.mjs:117-222 | `set` succeeds exactly for acceptable definitions; it then stores the normalised rule under its id, leaves the other rules alone, and appends a new id last; on failure it reports the normalisation error |
| Registry.Insert | lib/reargs.mjs:199-219 | filing a normalised rule adds exactly its id to the rules, stored with that rule, and exactly its group to the groups |
| Registry.SetGroups | lib/reargs.mjs:199-216 | `set` appends the rule's display entry to its group; the group's padding becomes exactly one past the entry's width when it was smaller, and stays otherwise; a new group goes last and other groups are untouched |
| Registry.SetValid | lib/reargs.mjs:117-222 | `set` keeps the registry well formed: distinct ordered ids and groups, every rule in an existing group, and every group's padding covering its members |
| Registry.InsertValid | lib/reargs.mjs:199-219 | storing a normalised rule keeps the registry well formed |
| Registry.SetupSpec | lib/reargs.mjs:93-107 | `setup` only adds rules: earlier ids keep their order at the front, and on success every defined id is registered |
| Registry.SetupValid | lib/reargs.mjs:93-107 | `setup` keeps the registry well formed |
| Registry.SetupSucceeds | lib/reargs.mjs:93-107 | `setup` succeeds exactly when every definition is acceptable |
| Registry.SetupStopsAtFirstFailure | lib/reargs.mjs:100-104 | on failure `setup` has registered exactly the definitions before the first bad one, and reports its error |
| Engine.DefaultValue | lib/reargs.mjs:237-239 | a flag default is that boolean, and keyed defaults become one stored text per key |
| Engine.ResetEntry | lib/reargs.mjs:234-243 | after `reset` a rule has no match record; its values are its defaults, or an empty object for `multiple`/`captureMultiple` rules |
| Engine.ResetState | lib/reargs.mjs:230-245 | `reset` gives every registered rule exactly its reset answer |
| Engine.Substitute | lib/reargs.mjs:320 | a non-empty capture is kept; an absent or empty one takes the rule's default for that name, if any |
| Engine.Append | lib/reargs.mjs:321-323 | `(values[key] \|\| []).concat(v)`; it has no contract of its own: `AppendLast` states it |
| Engine.AppendLast | lib/reargs.mjs:321-323 | the new value goes last, after a list's old elements; only a non-empty single text stays a single value, extended as a string |
| Engine.Store | lib/reargs.mjs:319-327 | the loop over the named groups; it has no contract of its own: `StoreKeys`, `StoreAppends` and `StoreOverwrites` state its keys and values |
| Engine.StoreKeys | lib/reargs.mjs:319-327 | storing captures keeps every existing key and adds exactly the captured names |
| Engine.StoreAppends | lib/reargs.mjs:321-323 | for `multiple`/`captureMultiple` rules every key ends up holding its old list followed by the new values for it, in order |
| Engine.LastFor | lib/reargs.mjs:319-326 | a key has a last capture exactly when some capture has that name |
| Engine.StoreOverwrites | lib/reargs.mjs:324-326 | for other rules a key holds its last capture, and keys not captured keep their value |
| Engine.Accept | lib/reargs.mjs:281-331 | an accepted match creates the match record, or extends it for a capture-multiple rule; without groups the value becomes `true`, except for capture-multiple rules; with groups the value is an object and `firstRound` turns false; the stored values are stated by `AcceptAppends` and `AcceptOverwrites` |
| Engine.RunForm | lib/reargs.mjs:273-345 | the form loop only shortens the argument and never unsets a match; when nothing is accepted, nothing changes |
| Engine.CmMatchShrinks | lib/reargs.mjs:335-338 | each capture-multiple match is non-empty, so the loop terminates |
| Engine.EndForm | lib/reargs.mjs:346-351 | at the end of a form, `found` takes the collected text and the index stays; a capture-multiple rule then clears its collected text |
| Engine.FormSpec | lib/reargs.mjs:270-351 | one form only shortens the argument, keeps an earlier match, and leaves the values unchanged when nothing matches |
| Engine.CheckArgSpec | lib/reargs.mjs:259-358 | `__checkArg` reports a match only with a match record; without a match the values are unchanged, and a fresh answer is left as it was |
| Engine.StopStep | lib/reargs.mjs:383-405 | one stop-rule turn never moves the cut point right, and either keeps the rule set of the answers or resets them |
| Engine.StopScan | lib/reargs.mjs:379-406 | the stop-rule scan answers every rule and puts the cut point inside the text |
| Engine.PassStep | lib/reargs.mjs:427-446 | one rule's turn in a pass keeps the answered rules and the stop rules' answers, and only shortens the text |
| Engine.Pass | lib/reargs.mjs:427-446 | a pass keeps the answered rules and the stop rules' answers, and only shortens the text; equal length means unchanged |
| Engine.Converge | lib/reargs.mjs:422-455 | the passes stop; the text they leave is no longer than the input and neither starts nor ends with the separator |
| Engine.ParseSpec | lib/reargs.mjs:367-459 | `parse` as a function; it has no contract of its own: `ParseExitSnapshot` states the early return under `exitOnStop`, `ParseStopCut` the cut and the passes with `exitOnStop` off, `ParseWithoutStops` the run without stop rules, and `StopScanLeftmost`, `StopScanAnswers` and `ConvergeStable` the phases it composes |
| Engine.Finish | lib/reargs.mjs:408-458 | what `parse` does after the stop scan; it has no contract of its own: `ParseExitSnapshot` states its early return, `FinishDefault` and `ParseStopCut` the cut and the passes it runs otherwise, and `ConvergeStable` where those passes stop |
| Instance.Reargs.constructor | lib/reargs.mjs:63-84 | a new instance has an empty, well-formed registry, the given options and no answers |
| Instance.Reargs.Create | lib/reargs.mjs:63-84 | the constructor succeeds exactly when `setup` of the definitions does, with that registry; otherwise it fails with `setup`'s error |
| Instance.Reargs.Setup | lib/reargs.mjs:93-107 | the loop of `setup` leaves the registry and error that `SetupSpec` describes, and touches nothing else |
| Instance.Reargs.Set | lib/reargs.mjs:117-222 | `set` returns whether the definition is acceptable; it then installs `SetSpec`'s registry, else records the error and changes nothing; the registry stays well formed |
| Instance.Reargs.Prepare | lib/reargs.mjs:127-189 | the loop over `short` and `long` computes exactly the normalised rule or the error |
| Instance.Reargs.Install | lib/reargs.mjs:199-219 | filing the rule and its display entry gives exactly `Insert`'s registry |
| Instance.Reargs.Reset | lib/reargs.mjs:230-245 | `reset` sets the answers to the reset answers of the registry and empties `remain` |
| Instance.Reargs.ResetAnswers | lib/reargs.mjs:233-244 | the loop of `reset` builds exactly the reset answers |
| Instance.Reargs.CheckForm | lib/reargs.mjs:270-351 | checking one form changes only that rule's answer, as `FormSpec` describes |
| Instance.Reargs.RunFormLoop | lib/reargs.mjs:273-345 | the `while (!done)` loop computes exactly `RunForm` |
| Instance.Reargs.Record | lib/reargs.mjs:282-331 | recording an accepted match computes exactly `Accept` |
| Instance.Reargs.CloseForm | lib/reargs.mjs:346-351 | closing a form computes exactly `EndForm` |
| Instance.Reargs.StoreCaptures | lib/reargs.mjs:319-327 | the loop over the named groups computes exactly `Store` |
| Instance.Reargs.CheckArg | lib/reargs.mjs:259-358 | `__checkArg` changes only that rule's answer, as `CheckArgSpec` describes, and returns whether it matched |
| Instance.Reargs.Parse | lib/reargs.mjs:367-459 | `parse` leaves the answers, `remain` and result that `ParseSpec` gives for the registry it started with, and changes no rule |
| Instance.Reargs.StopPhase | lib/reargs.mjs:379-406 | the stop-rule loop ends in the state `StopScan` describes |
| Instance.Reargs.StopTurn | lib/reargs.mjs:384-405 | one iteration of the stop-rule loop advances the scan by one rule |
| Instance.Reargs.Conclude | lib/reargs.mjs:408-458 | cutting at the stop match, returning early under `exitOnStop`, or running the passes gives `Finish`'s result |
| Instance.Reargs.Settle | lib/reargs.mjs:422-455 | the `while (!done)` loop of passes computes exactly `Converge` |
| Instance.Reargs.OnePass | lib/reargs.mjs:427-446 | one pass over the rules computes exactly `Pass` |
| Instance.Reargs.PassTurn | lib/reargs.mjs:428-445 | one iteration of a pass advances it by one rule |
| ParseProperties.NothingMatchesEmpty | lib/reargs.mjs:259-358 | a rule whose forms all need a character does not match the empty text |
| ParseProperties.StopScanEmpty | lib/reargs.mjs:379-406 | on the empty text the stop scan finds nothing and leaves the reset answers |
| ParseProperties.PassEmpty | lib/reargs.mjs:427-446 | a pass over the empty text changes nothing |
| ParseProperties.ParseNothing | lib/reargs.mjs:367-459 | `parse([])` leaves the reset answers, no `remain`, and returns the empty string |
| ParseProperties.StopStepAnswers | lib/reargs.mjs:383-405 | a stop-rule turn changes at most that rule's answer, unless `exitOnStop` resets them all; a non-stop rule's turn changes nothing |
| ParseProperties.StopScanFresh | lib/reargs.mjs:383-406 | rules the stop scan has not reached still hold their reset answers |
| ParseProperties.StopStepFacts | lib/reargs.mjs:386-404 | a stop rule that matches strictly left of the current cut point becomes the cut point, with its match length, and under `exitOnStop` the snapshot holds its answer; otherwise the cut point stays |
| ParseProperties.LeftmostStep | lib/reargs.mjs:393-403 | that turn keeps the cut point at the leftmost stop match so far, with the earliest rule winning ties |
| ParseProperties.StopScanLeftmost | lib/reargs.mjs:379-406 | the cut point is the leftmost stop-rule match; the first rule matching there wins, and its match length is kept |
| ParseProperties.StopScanAnswers | lib/reargs.mjs:383-406 | without `exitOnStop`, after the scan each stop rule holds its own check of the whole text, and every other rule its reset answer |
| ParseProperties.StopScanOthersReset | lib/reargs.mjs:383-406 | the scan leaves every rule other than a stop rule at its reset answer, and under `exitOnStop` so does the snapshot taken at a stop match |
| ParseProperties.ParseExitSnapshot | lib/reargs.mjs:408-418 | under `exitOnStop`, once a stop rule matched, `parse` returns the text before the match, puts what follows in `remain`, and keeps the snapshot, in which every rule other than a stop rule holds its reset answer |
| ParseProperties.FinishDefault | lib/reargs.mjs:408-458 | with `exitOnStop` off, a stop match cuts the text: what follows the match is `remain` and the passes run over what precedes it; without a stop match `remain` is empty and the passes run over the whole text |
| ParseProperties.CutKeepsStopAnswer | lib/reargs.mjs:383-455 | with `exitOnStop` off, a stop rule's answer after the passes over the text before the cut is its own check of the whole text |
| ParseProperties.ParseStopCut | lib/reargs.mjs:367-459 | `parse` with `exitOnStop` off: with a stop match, `remain` is the text after the leftmost one and the result is the passes over the text before it; without one, `remain` is empty and the passes run over the whole text; the passes start with every other rule at its reset answer, and each stop rule keeps its own check |
| ParseProperties.StopScanNoStops | lib/reargs.mjs:379-410 | with no stop rules the scan changes nothing and nothing is cut |
| ParseProperties.ParseWithoutStops | lib/reargs.mjs:367-459 | with no stop rules, `parse` is the passes run on the joined text from the reset answers, with no `remain` |
| ParseProperties.ConvergeKeepsStops | lib/reargs.mjs:432 | the passes never change a stop rule's answer |
| ParseProperties.ConvergeStable | lib/reargs.mjs:422-455 | the passes stop only at a fixed point: one more pass from the answers the last pass started with gives the returned answers and, trimmed, the returned text again |
| ParseProperties.RunFormWithin | lib/reargs.mjs:281 | a match record never starts after the allowed index |
| ParseProperties.CheckArgWithin | lib/reargs.mjs:281 | so in a pass (allowed index 0) every match record starts at 0 |
| ParseProperties.AcceptClears | lib/reargs.mjs:303-327 | the first grouped match of a non-`multiple` rule replaces its values by exactly the captured names |
| ParseProperties.AcceptKeeps | lib/reargs.mjs:303-327 | later grouped matches, or any of a `multiple` rule, keep the old keys and add the captured names |
| ParseProperties.AcceptAppends | lib/reargs.mjs:302-327 | for a `multiple` or capture-multiple rule whose stored values are lists, a captured match leaves an object of lists in which each key holds its earlier list (none after a flag) followed by this match's values for it, after default substitution, in capture order |
| ParseProperties.AcceptOverwrites | lib/reargs.mjs:302-327 | for a single-valued rule, each captured key holds the substituted value of its last capture; every other key is kept from the earlier object, which the first captured match of a call (or a flag value) replaces by `{}` |
| Accessors.GetValue | lib/reargs.mjs:472-489 | `null` exactly for an unknown rule or a key asked of a flag; the whole value without a key; with a key, `undefined` exactly when the object lacks it, else the stored capture |
| Accessors.GetValueDefaults | lib/reargs.mjs:237-238 | before any match, a single-valued rule answers each key with its default and `undefined` otherwise |
| Accessors.InGroup | lib/reargs.mjs:506-510 | the ids selected for a group are exactly the registered rules of that group |
| Accessors.MergeKeys | lib/reargs.mjs:513-524 | a key is in the result exactly when some selected rule writes it: a capture name of an object value, or the id of a flag rule |
| Accessors.MergeLastWins | lib/reargs.mjs:513-524 | a key holds what the last selected rule writing it wrote |
| Accessors.Merge | lib/reargs.mjs:513-524 | the `forEach` with `Object.assign`; it has no contract of its own: `MergeKeys` and `MergeLastWins` state its keys and values |
| Accessors.GetGroupValues | lib/reargs.mjs:499-527 | `getGroupValues(group)`; it has no contract of its own: `InGroup` states which rules it reads, `MergeKeys` and `MergeLastWins` what it returns, `UnknownGroupEmpty` the unknown group |
| Accessors.GetAllValues | lib/reargs.mjs:534-536 | `getAllValues()` is `getGroupValues(null)` |
| Accessors.UnknownGroupEmpty | lib/reargs.mjs:499-527 | a group no rule belongs to gives an empty object |
| Accessors.GroupKeysInAll | lib/reargs.mjs:499-536 | every key of a group's values is also a key of all values |
| Accessors.AllKeysFromGroup | lib/reargs.mjs:499-536 | every key of all values is a key of the group values of some rule's group |
| Scenarios.FlagCheck | lib/reargs.mjs:259-358 | a long flag `w` checked against `w`, a separator and more text matches and leaves that text, with its value `true` |
| Scenarios.FlagCheckAbsent | lib/reargs.mjs:259-358 | checked against a text without `w`, it does not match and its answer stays |
| Scenarios.FirstPass | lib/reargs.mjs:427-446 | the first pass sets the flag and removes the word with its separator |
| Scenarios.LaterPass | lib/reargs.mjs:427-446 | a pass over text without the word changes nothing |
| Scenarios.ConvergeFlag | lib/reargs.mjs:422-455 | the passes stop after the second, which leaves the text after the flag |
| Scenarios.LeadingFlagThenRest | lib/reargs.mjs:367-459 | parsing `w` and further clean tokens, with only the flag `w` registered, sets the flag, leaves no `remain`, and returns the other tokens joined |
| Scenarios.ListFooApi | lib/reargs.mjs:367-459 | with the flag `list` registered, `parse(['list', 'foo', 'api'])` returns `'foo api'` |

## Left out

- Regular expressions: the source uses JavaScript `RegExp`. The model uses its own pattern
  language: literals, character classes, optional literals, separator runs, separator-or-end
  and named captures, matched greedily without backtracking. Alternation (`a|b`),
  backtracking and the parsing of expression source text are not modelled. A string form is
  given as its source text together with the pattern it denotes. A `RegExp` the caller
  supplies with the `g` or `y` flag makes `exec` (`lib/reargs.mjs:277`) start from the
  `lastIndex` the previous call left; the model's matcher is a pure function of the pattern
  and the text, so it does not capture that state.
- `\s` and `trim`: `\s` and `trim` stand for the one separator character the tokens are
  joined with. Other whitespace is not modelled.
- The `debug` callback: it has no effect on the state and is left out.
- Help generation: `generateHelp`, the nunjucks template and its environment are left out.
  Only the `padEnd` filter is modelled. Its fill is one character.
- Runtime type checks: the checks that throw `TypeError` are left out. These are a
  non-object `params` or options argument, and a non-array argument to `parse`. In the
  model these cases cannot be written.
- Error texts: errors are values (`SetupError`). Their text built with `inspect` is not
  modelled.
- Options: the constructor takes complete options. The merge of the given options over the
  defaults (`Object.assign`) is left to the caller, with `DefaultOptions` as the defaults.
- Iteration order: `for … in` over `params` is modelled as insertion order (`ids`). The
  order JavaScript gives integer-like keys is not modelled.
- Registry.Display: a negative `alignLongIfNoShort` (which `padStart` ignores) is not
  modelled; the option is a `nat`.
- Registry.Normalize: a `null` `short` or `long` passes the `'undefined'` type test, and
  `null.toString()` then throws a `TypeError` at `lib/reargs.mjs:151`. The model has no
  `null` form: `OtherType` stands for a value of another type, which `set` refuses with an
  error. A `null` or non-string `humanReadable` makes the source throw at
  `lib/reargs.mjs:186` or `lib/reargs.mjs:207`; in the model `humanReadable` is a string or
  absent, so this case cannot be written.
- Defaults: `values` is either a boolean or a map of texts. Other value types are not
  modelled.
- The `args` field: `parse` stores its input, and nothing reads it.
- Engine.RunForm: it does not state that the text left is a suffix of the input. Only its
  length bound is stated.
- Engine.Converge: its own contract states only the bounds of its result and its clean
  ends. The exit condition is stated by `ConvergeStable`. Its exact result is stated only
  for the one-flag registry of `ConvergeFlag`.
- Engine.CheckArgSpec: it requires `Terminates(r)`. This requires that a
  `captureMultiple` expression never matches the empty string; otherwise the source loops
  forever.
- Accessors.GetGroupValues: it requires every selected rule to have an answer, that is,
  `parse` was called. The source throws otherwise. Its contents are stated by `MergeKeys`
  and `MergeLastWins`.
- ParseProperties.AcceptAppends: it requires the earlier object to hold only lists. For a
  `multiple` or capture-multiple rule this holds from the reset value `{}` on, since only
  appends follow; the lemma does not prove that invariant across a whole `parse`.
- Accessors.GetValue: a rule's value is never an array, so the array branch of the source
  is not reached. Before any `parse` the source's `askfor` is undefined and `getValue`
  throws a `TypeError` at `lib/reargs.mjs:473`; a fresh instance of the model has no
  answers, and `GetValue` answers `Null` there instead.
- Accessors.Selected: `getGroupValues()` with no argument passes `undefined`, which is not
  `null` and is no rule's group (every rule has one), so the source returns `{}`. The
  model's group argument is `null` or a name, so this call cannot be written; it behaves
  as a group no rule belongs to, which `UnknownGroupEmpty` states.
- ParseProperties.ParseNothing: it is stated only for rules whose forms cannot match the
  empty text. A rule that can match it sets its value even for `parse([])`.
- Instance.Reargs.Parse: it is proved with the engine `Greedy`, which has no backtracking.
  The `Engine` functions hold for any engine that is `Sound`.

=== FILE: accessors.dfy ===
/** The read-only accessors over the answers of the last `parse`:
    `getValue`, `getGroupValues` and `getAllValues`. */
module Accessors {
  import opened Common
  import opened Registry
  import opened Engine

  /** What `getValue` returns: `null`, `undefined`, a rule's whole
      `values`, or one stored capture of it. */
  datatype Lookup = Null | Undefined | Whole(v: Value) | Field(s: Slot)

  /** `getValue(id, key)`: nothing for a rule that has no answer, the whole
      value without a key, the stored capture under the key for a map
      value (`undefined` when it has no such key), and nothing for a key
      asked of a flag. */
  function GetValue(askfor: Answers, id: string, key: Option<string>): (r: Lookup)
    ensures r == Null <==> id !in askfor || (key.Some? && askfor[id].values.Flag?)
    ensures r.Whole? <==> id in askfor && key.None?
    ensures r.Whole? ==> r.v == askfor[id].values
    ensures r == Undefined <==>
              id in askfor && key.Some? && askfor[id].values.Caps? && key.value !in askfor[id].values.m
    ensures r.Field? ==>
              && id in askfor && key.Some? && askfor[id].values.Caps? && key.value in askfor[id].values.m
              && r.s == askfor[id].values.m[key.value]
  {
    if id !in askfor then Null
    else
      var values := askfor[id].values;
      match key
      case None => Whole(values)
      case Some(k) =>
        match values
        case Caps(m) => if k in m then Field(m[k]) else Undefined
        case Flag(_) => Null
  }

  /** Before any match, a single-valued rule with keyed defaults answers
      each of its keys with the default, and `undefined` for other keys. */
  lemma GetValueDefaults(reg: RuleSet, id: string, k: string)
    requires id in reg.params
    requires var r := reg.params[id]; !r.multiple && !r.cmSet && r.values.KeyedDefault?
    ensures var d := reg.params[id].values.m;
            GetValue(ResetState(reg), id, Some(k)) == if k in d then Field(One(Some(d[k]))) else Undefined
  {
  }

  // ---------------------------------------------------------------------
  // getGroupValues

  /** One entry of `getGroupValues`' result: a stored capture merged from a
      rule's map value, or a rule's flag stored under the rule's id. */
  datatype Item = Captured(s: Slot) | FlagValue(b: bool)

  /** The ids, in order, of the rules in group `g`. */
  function InGroup(ids: seq<string>, params: map<string, Rule>, g: string): (r: seq<string>)
    ensures forall x :: x in r <==> x in ids && x in params && params[x].group == g
    ensures |r| <= |ids|
    decreases |ids|
  {
    if |ids| == 0 then []
    else
      var rest := InGroup(ids[..|ids| - 1], params, g);
      var x := ids[|ids| - 1];
      assert forall y :: y in ids <==> y in ids[..|ids| - 1] || y == x by {
        assert ids == ids[..|ids| - 1] + [x];
      }
      if x in params && params[x].group == g then rest + [x] else rest
  }

  /** The rules `getGroupValues(group)` reads: all of them for `null`, the
      members of the group otherwise. */
  function Selected(reg: RuleSet, group: Option<string>): seq<string> {
    match group
    case None => reg.ids
    case Some(g) => InGroup(reg.ids, reg.params, g)
  }

  /** The value `v` of rule `id` writes key `k` of the result. */
  predicate Writes(v: Value, id: string, k: string) {
    (v.Caps? && k in v.m) || (v.Flag? && k == id)
  }

  function ItemOf(v: Value, id: string, k: string): Item
    requires Writes(v, id, k)
  {
    match v
    case Caps(m) => Captured(m[k])
    case Flag(b) => FlagValue(b)
  }

  /** The `forEach` over the selected rules: a map value is merged key by
      key (`Object.assign`), a flag is stored under the rule's id. */
  function Merge(askfor: Answers, ids: seq<string>): map<string, Item>
    requires forall i :: 0 <= i < |ids| ==> ids[i] in askfor
    decreases |ids|
  {
    if |ids| == 0 then map[]
    else
      var acc := Merge(askfor, ids[..|ids| - 1]);
      var id := ids[|ids| - 1];
      match askfor[id].values
      case Caps(m) => acc + map k | k in m :: Captured(m[k])
      case Flag(b) => acc[id := FlagValue(b)]
  }

  /** A key is in the result exactly when one of the rules writes it. */
  lemma {:induction false} MergeKeys(askfor: Answers, ids: seq<string>, k: string)
    requires forall i :: 0 <= i < |ids| ==> ids[i] in askfor
    ensures k in Merge(askfor, ids) <==>
              exists i :: 0 <= i < |ids| && Writes(askfor[ids[i]].values, ids[i], k)
    decreases |ids|
  {
    if |ids| > 0 {
      var n := |ids| - 1;
      var front := ids[..n];
      MergeKeys(askfor, front, k);
      if exists i :: 0 <= i < |ids| && Writes(askfor[ids[i]].values, ids[i], k) {
        var i :| 0 <= i < |ids| && Writes(askfor[ids[i]].values, ids[i], k);
        if i < n {
          assert front[i] == ids[i];
        }
      }
      if exists i :: 0 <= i < n && Writes(askfor[front[i]].values, front[i], k) {
        var i :| 0 <= i < n && Writes(askfor[front[i]].values, front[i], k);
        assert ids[i] == front[i];
      }
    }
  }

  /** Later rules win: a key holds what the last rule writing it wrote. */
  lemma {:induction false} MergeLastWins(askfor: Answers, ids: seq<string>, k: string, j: nat)
    requires forall i :: 0 <= i < |ids| ==> ids[i] in askfor
    requires j < |ids| && Writes(askfor[ids[j]].values, ids[j], k)
    requires forall i :: j < i < |ids| ==> !Writes(askfor[ids[i]].values, ids[i], k)
    ensures k in Merge(askfor, ids)
    ensures Merge(askfor, ids)[k] == ItemOf(askfor[ids[j]].values, ids[j], k)
    decreases |ids|
  {
    var n := |ids| - 1;
    if j < n {
      var front := ids[..n];
      assert front[j] == ids[j];
      forall i | j < i < n
        ensures !Writes(askfor[front[i]].values, front[i], k)
      {
        assert front[i] == ids[i];
      }
      MergeLastWins(askfor, front, k, j);
      assert !Writes(askfor[ids[n]].values, ids[n], k);
    }
  }

  /** `getGroupValues(group)`, once every registered rule has an answer. */
  function GetGroupValues(reg: RuleSet, askfor: Answers, group: Option<string>): (r: map<string, Item>)
    requires KeysListed(reg) && reg.params.Keys <= askfor.Keys
  {
    var ids := Selected(reg, group);
    assert forall i :: 0 <= i < |ids| ==> ids[i] in askfor by {
      forall i | 0 <= i < |ids| ensures ids[i] in askfor {
        assert ids[i] in ids;
      }
    }
    Merge(askfor, ids)
  }

  /** `getAllValues()`: `getGroupValues(null)`. */
  function GetAllValues(reg: RuleSet, askfor: Answers): (r: map<string, Item>)
    requires KeysListed(reg) && reg.params.Keys <= askfor.Keys
    ensures r == GetGroupValues(reg, askfor, None)
  {
    GetGroupValues(reg, askfor, None)
  }

  /** A group no rule belongs to yields an empty result. */
  lemma UnknownGroupEmpty(reg: RuleSet, askfor: Answers, g: string)
    requires KeysListed(reg) && reg.params.Keys <= askfor.Keys
    requires forall id :: id in reg.params ==> reg.params[id].group != g
    ensures GetGroupValues(reg, askfor, Some(g)) == map[]
  {
    var s := InGroup(reg.ids, reg.params, g);
    assert forall i :: 0 <= i < |s| ==> s[i] !in s;
  }

  /** Every key of a group's values is also a key of all values. */
  lemma GroupKeysInAll(reg: RuleSet, askfor: Answers, g: string)
    requires KeysListed(reg) && reg.params.Keys <= askfor.Keys
    ensures GetGroupValues(reg, askfor, Some(g)).Keys <= GetAllValues(reg, askfor).Keys
  {
    var sel := Selected(reg, Some(g));
    forall k | k in GetGroupValues(reg, askfor, Some(g))
      ensures k in GetAllValues(reg, askfor)
    {
      assert forall i :: 0 <= i < |sel| ==> sel[i] in askfor by {
        forall i | 0 <= i < |sel| ensures sel[i] in askfor {
          assert sel[i] in sel;
        }
      }
      MergeKeys(askfor, sel, k);
      var i :| 0 <= i < |sel| && Writes(askfor[sel[i]].values, sel[i], k);
      assert sel[i] in sel;
      var j :| 0 <= j < |reg.ids| && reg.ids[j] == sel[i];
      MergeKeys(askfor, reg.ids, k);
    }
  }

  /** Conversely, every key of all values comes from some rule, and is a
      key of that rule's group values. */
  lemma AllKeysFromGroup(reg: RuleSet, askfor: Answers, k: string) returns (id: string)
    requires KeysListed(reg) && reg.params.Keys <= askfor.Keys
    requires k in GetAllValues(reg, askfor)
    ensures id in reg.params && k in GetGroupValues(reg, askfor, Some(reg.params[id].group))
  {
    assert forall i :: 0 <= i < |reg.ids| ==> reg.ids[i] in askfor;
    MergeKeys(askfor, reg.ids, k);
    var i :| 0 <= i < |reg.ids| && Writes(askfor[reg.ids[i]].values, reg.ids[i], k);
    id := reg.ids[i];
    var sel := Selected(reg, Some(reg.params[id].group));
    assert id in sel;
    var j :| 0 <= j < |sel| && sel[j] == id;
    assert forall x :: 0 <= x < |sel| ==> sel[x] in askfor by {
      forall x | 0 <= x < |sel| ensures sel[x] in askfor {
        assert sel[x] in sel;
      }
    }
    MergeKeys(askfor, sel, k);
  }
}

=== FILE: common.dfy ===
/** Small value types and the string operations the matcher relies on:
    joining tokens, first-occurrence replace, trimming separators and
    looking at the first two lines of a display string. */
module Common {

  datatype Option<+T> = None | Some(value: T) {
    function GetOr(default: T): T {
      match this
      case Some(v) => v
      case None => default
    }
  }

  datatype Result<+R, +E> = Success(value: R) | Failure(error: E)

  /** `n` copies of character `c` (what `padStart`/`padEnd` insert). */
  function Repeat(c: char, n: nat): (r: string)
    ensures |r| == n
    ensures forall i :: 0 <= i < n ==> r[i] == c
  {
    if n == 0 then "" else [c] + Repeat(c, n - 1)
  }

  /** `tokens.join(sep)`: the tokens with one separator between neighbours. */
  function Join(tokens: seq<string>, sep: char): (r: string)
  {
    if |tokens| == 0 then ""
    else if |tokens| == 1 then tokens[0]
    else tokens[0] + [sep] + Join(tokens[1..], sep)
  }

  /** Cutting a string at every separator; the inverse of Join on tokens
      that do not contain the separator. */
  function Split(s: string, sep: char): (r: seq<string>)
    ensures |r| >= 1
    decreases |s|
  {
    if |s| == 0 then [""]
    else
      var rest := Split(s[1..], sep);
      if s[0] == sep then [""] + rest
      else [[s[0]] + rest[0]] + rest[1..]
  }

  lemma {:induction false} SplitNoSep(t: string, sep: char)
    requires sep !in t
    ensures Split(t, sep) == [t]
    decreases |t|
  {
    if |t| > 0 {
      SplitNoSep(t[1..], sep);
      assert [t[0]] + t[1..] == t;
    }
  }

  lemma {:induction false} SplitAppend(t: string, sep: char, rest: string)
    requires sep !in t
    ensures Split(t + [sep] + rest, sep) == [t] + Split(rest, sep)
    decreases |t|
  {
    if |t| == 0 {
      assert t + [sep] + rest == [sep] + rest;
      assert ([sep] + rest)[1..] == rest;
    } else {
      assert (t + [sep] + rest)[1..] == t[1..] + [sep] + rest;
      SplitAppend(t[1..], sep, rest);
      assert [t[0]] + t[1..] == t;
    }
  }

  /** Round trip: when no token contains the separator, the joined string
      can be cut back into exactly the tokens. */
  lemma {:induction false} SplitJoin(tokens: seq<string>, sep: char)
    requires |tokens| >= 1
    requires forall i :: 0 <= i < |tokens| ==> sep !in tokens[i]
    ensures Split(Join(tokens, sep), sep) == tokens
    decreases |tokens|
  {
    if |tokens| == 1 {
      SplitNoSep(tokens[0], sep);
    } else {
      SplitJoin(tokens[1..], sep);
      SplitAppend(tokens[0], sep, Join(tokens[1..], sep));
      assert [tokens[0]] + tokens[1..] == tokens;
    }
  }

  /** `f` occurs in `s` at position `j`. */
  predicate OccursAt(s: string, f: string, j: nat) {
    j + |f| <= |s| && s[j..j + |f|] == f
  }

  /** Index of the first occurrence of `f` in `s` at or after `k`. */
  function FindFrom(s: string, f: string, k: nat): (r: Option<nat>)
    requires k <= |s|
    ensures r.Some? ==> k <= r.value && OccursAt(s, f, r.value)
    ensures r.Some? ==> forall j :: k <= j < r.value ==> !OccursAt(s, f, j)
    ensures r.None? ==> forall j :: k <= j ==> !OccursAt(s, f, j)
    decreases |s| - k
  {
    if k + |f| > |s| then None
    else if OccursAt(s, f, k) then Some(k)
    else FindFrom(s, f, k + 1)
  }

  /** `s.replace(f, '')` with a string pattern: only the first occurrence
      of `f` is removed (an empty `f` removes nothing). */
  function ReplaceFirst(s: string, f: string): (r: string)
    ensures |r| <= |s|
    ensures |r| == |s| ==> r == s
  {
    match FindFrom(s, f, 0)
    case None => s
    case Some(k) => s[..k] + s[k + |f|..]
  }

  /** Removing a prefix: when `s` starts with `f`, replace-first removes
      exactly that prefix. */
  lemma ReplaceFirstPrefix(s: string, f: string)
    requires |f| <= |s| && s[..|f|] == f
    ensures ReplaceFirst(s, f) == s[|f|..]
  {
    assert s[0..|f|] == f;
    var k := FindFrom(s, f, 0);
    assert k == Some(0);
  }

  /** Strip the separator at the start. */
  function TrimStart(s: string, sep: char): (r: string)
    ensures |r| <= |s| && r == s[|s| - |r|..]
    ensures |r| > 0 ==> r[0] != sep
    ensures forall i :: 0 <= i < |s| - |r| ==> s[i] == sep
    decreases |s|
  {
    if |s| > 0 && s[0] == sep then TrimStart(s[1..], sep) else s
  }

  /** Strip the separator at the end. */
  function TrimEnd(s: string, sep: char): (r: string)
    ensures |r| <= |s| && r == s[..|r|]
    ensures |r| > 0 ==> r[|r| - 1] != sep
    ensures forall i :: |r| <= i < |s| ==> s[i] == sep
    decreases |s|
  {
    if |s| > 0 && s[|s| - 1] == sep then TrimEnd(s[..|s| - 1], sep) else s
  }

  /** `trim()`, with the separator standing for white space. */
  function Trim(s: string, sep: char): (r: string)
    ensures |r| <= |s|
    ensures |r| == |s| ==> r == s
    ensures CleanEnds(r, sep)
  {
    TrimEnd(TrimStart(s, sep), sep)
  }

  lemma TrimIdempotent(s: string, sep: char)
    ensures Trim(Trim(s, sep), sep) == Trim(s, sep)
  {
    var t := Trim(s, sep);
    assert TrimStart(t, sep) == t;
    assert TrimEnd(t, sep) == t;
  }

  /** `s` neither starts nor ends with the separator. */
  predicate CleanEnds(s: string, sep: char) {
    |s| > 0 ==> s[0] != sep && s[|s| - 1] != sep
  }

  /** Every token is non-empty and free of the separator. */
  predicate CleanTokens(tokens: seq<string>, sep: char) {
    forall i :: 0 <= i < |tokens| ==> |tokens[i]| > 0 && sep !in tokens[i]
  }

  /** A string that neither starts nor ends with the separator is left
      as it is by `trim`. */
  lemma TrimClean(s: string, sep: char)
    requires CleanEnds(s, sep)
    ensures Trim(s, sep) == s
  {
  }

  /** Joining non-empty tokens free of the separator gives a non-empty
      text that neither starts nor ends with it. */
  lemma {:induction false} JoinEnds(tokens: seq<string>, sep: char)
    requires |tokens| > 0 && CleanTokens(tokens, sep)
    ensures |Join(tokens, sep)| > 0 && CleanEnds(Join(tokens, sep), sep)
    decreases |tokens|
  {
    assert tokens[0][0] in tokens[0];
    if |tokens| > 1 {
      JoinEnds(tokens[1..], sep);
      var last := tokens[|tokens| - 1];
      assert last[|last| - 1] in last;
    } else {
      assert tokens[0][|tokens[0]| - 1] in tokens[0];
    }
  }

  /** Position of the first `c` in `s`, or |s|. */
  function IndexOf(s: string, c: char): (r: nat)
    ensures r <= |s|
    ensures forall i :: 0 <= i < r ==> s[i] != c
    ensures r < |s| ==> s[r] == c
  {
    if |s| == 0 then 0 else if s[0] == c then 0 else 1 + IndexOf(s[1..], c)
  }

  /** `str.split('\n')[0]`. */
  function FirstLine(s: string): (r: string)
    ensures '\n' !in r
    ensures r <= s
  {
    s[..IndexOf(s, '\n')]
  }

  /** `str.split('\n')[1]` when there are at least two lines. */
  function SecondLine(s: string): (r: Option<string>)
    ensures r.Some? ==> '\n' !in r.value
    ensures r.Some? <==> '\n' in s
  {
    var k := IndexOf(s, '\n');
    if k == |s| then None else Some(FirstLine(s[k + 1..]))
  }
}

=== FILE: engine.dfy ===
/** The matching engine as functions of the registry and the arguments:
    what `reset` builds, what one `__checkArg` call does to a rule's
    answer, and what `parse` computes (stop-rule scan, then passes until
    the working string stops changing). The class in `instance.dfy`
    carries out the same steps on its fields and is proved against these
    functions. */
module Engine {
  import opened Common
  import opened Patterns
  import opened Registry

  /** One stored capture: a single text (or `undefined`), or the list
      kept by `multiple`/`captureMultiple` rules. */
  datatype Slot = One(v: Option<string>) | Many(vs: seq<Option<string>>)

  /** A rule's `values`: a flag, or an object of captures. */
  datatype Value = Flag(b: bool) | Caps(m: map<string, Slot>)

  /** A rule's `result`: the index of the match that created it, the text
      collected so far (`temp`) and the text to remove (`found`). A fresh
      record has no `found` until the end of the form that created it;
      nothing reads it before, so it starts out empty here. */
  datatype MatchRecord = MatchRecord(index: nat, temp: string, found: string)

  /** `askfor[id]`. */
  datatype Entry = Entry(values: Value, result: Option<MatchRecord>)

  type Answers = map<string, Entry>

  // ---------------------------------------------------------------------
  // reset

  function DefaultValue(d: Defaults): (v: Value)
    ensures d.FlagDefault? ==> v == Flag(d.b)
    ensures d.KeyedDefault? ==>
              (v.Caps? && v.m.Keys == d.m.Keys && forall k :: k in d.m ==> v.m[k] == One(Some(d.m[k])))
  {
    match d
    case FlagDefault(b) => Flag(b)
    case KeyedDefault(m) => Caps(map k | k in m :: One(Some(m[k])))
  }

  /** A rule's answer after `reset`: its configured default, unless it
      collects several occurrences, in which case an empty object. */
  function ResetEntry(r: Rule): (e: Entry)
    ensures e.result.None?
    ensures !r.multiple && !r.cmSet ==> e.values == DefaultValue(r.values)
    ensures r.multiple || r.cmSet ==> e.values == Caps(map[])
  {
    Entry(if !r.multiple && !r.cmSet then DefaultValue(r.values) else Caps(map[]), None)
  }

  function ResetState(reg: RuleSet): (a: Answers)
    ensures a.Keys == reg.params.Keys
    ensures forall id :: id in a ==> a[id] == ResetEntry(reg.params[id])
  {
    map id | id in reg.params :: ResetEntry(reg.params[id])
  }

  // ---------------------------------------------------------------------
  // Storing captures

  /** `value || defaultValues[key]`: an absent or empty capture takes the
      rule's default for that name, if it has one. */
  function Substitute(c: Cap, d: Defaults): (v: Option<string>)
    ensures c.text.Some? && c.text.value != "" ==> v == c.text
    ensures (c.text.None? || c.text.value == "") && d.KeyedDefault? && c.name in d.m ==> v == Some(d.m[c.name])
    ensures (c.text.None? || c.text.value == "") && !(d.KeyedDefault? && c.name in d.m) ==> v.None?
  {
    if c.text.Some? && c.text.value != "" then c.text
    else if d.KeyedDefault? && c.name in d.m then Some(d.m[c.name])
    else None
  }

  /** `(values[key] || []).concat(v)`. A list grows by one element; a
      missing key or a falsy single value starts a list; a non-empty text
      is extended as a string, which is what `concat` does on strings
      (`undefined` being written out). */
  function Append(vals: map<string, Slot>, k: string, v: Option<string>): Slot {
    if k !in vals then Many([v])
    else match vals[k]
      case Many(vs) => Many(vs + [v])
      case One(x) =>
        if x.None? || x.value == "" then Many([v]) else One(Some(x.value + v.GetOr("undefined")))
  }

  /** Appending puts the new value last: a list keeps its elements before
      it, and only a non-empty single text stays a single value. */
  lemma AppendLast(vals: map<string, Slot>, k: string, v: Option<string>)
    ensures var r := Append(vals, k, v);
            r.Many? ==> |r.vs| > 0 && r.vs[|r.vs| - 1] == v
    ensures k in vals && vals[k].Many? ==>
              Append(vals, k, v).Many? && Append(vals, k, v).vs[..|vals[k].vs|] == vals[k].vs
    ensures Append(vals, k, v).One? <==>
              k in vals && vals[k].One? && vals[k].v.Some? && vals[k].v.value != ""
  {
  }

  /** The loop over `Object.entries(matchGroups.groups)`: each capture,
      after default substitution, is appended (`append`) or overwrites
      its key. */
  function Store(vals: map<string, Slot>, caps: seq<Cap>, d: Defaults, append: bool): (r: map<string, Slot>)
    decreases |caps|
  {
    if |caps| == 0 then vals
    else
      var c := caps[0];
      var slot := if append then Append(vals, c.name, Substitute(c, d)) else One(Substitute(c, d));
      Store(vals[c.name := slot], caps[1..], d, append)
  }

  /** Storing keeps every key and adds exactly the captured names. */
  lemma {:induction false} StoreKeys(vals: map<string, Slot>, caps: seq<Cap>, d: Defaults, append: bool)
    ensures Store(vals, caps, d, append).Keys == vals.Keys + set c | c in caps :: c.name
    decreases |caps|
  {
    if |caps| > 0 {
      var c := caps[0];
      var slot := if append then Append(vals, c.name, Substitute(c, d)) else One(Substitute(c, d));
      StoreKeys(vals[c.name := slot], caps[1..], d, append);
      assert caps == [c] + caps[1..];
      assert (set x | x in caps :: x.name) == {c.name} + set x | x in caps[1..] :: x.name;
    }
  }

  /** The substituted values of the captures named `k`, in order. */
  function ValuesFor(caps: seq<Cap>, k: string, d: Defaults): seq<Option<string>>
    decreases |caps|
  {
    if |caps| == 0 then []
    else (if caps[0].name == k then [Substitute(caps[0], d)] else []) + ValuesFor(caps[1..], k, d)
  }

  /** Every stored capture is a list. */
  predicate AllMany(vals: map<string, Slot>) {
    forall k :: k in vals ==> vals[k].Many?
  }

  function Listed(vals: map<string, Slot>, k: string): seq<Option<string>> {
    if k in vals && vals[k].Many? then vals[k].vs else []
  }

  /** Accumulation order: in append mode over lists, every key ends up
      holding what it held before followed by this match's values for it,
      in the order the captures appear. */
  lemma {:induction false} StoreAppends(vals: map<string, Slot>, caps: seq<Cap>, d: Defaults, k: string)
    requires AllMany(vals)
    ensures AllMany(Store(vals, caps, d, true))
    ensures k in Store(vals, caps, d, true) ==>
              Store(vals, caps, d, true)[k] == Many(Listed(vals, k) + ValuesFor(caps, k, d))
    decreases |caps|
  {
    if |caps| > 0 {
      var c := caps[0];
      var next := vals[c.name := Append(vals, c.name, Substitute(c, d))];
      StoreAppends(next, caps[1..], d, k);
      if c.name == k {
        assert Listed(next, k) == Listed(vals, k) + [Substitute(c, d)];
      } else {
        assert Listed(next, k) == Listed(vals, k);
      }
      assert Listed(vals, k) + ValuesFor(caps, k, d) == Listed(next, k) + ValuesFor(caps[1..], k, d);
    }
  }

  /** The substituted value of the last capture named `k`, if any. */
  function LastFor(caps: seq<Cap>, k: string, d: Defaults): (r: Option<Option<string>>)
    ensures r.Some? <==> exists i :: 0 <= i < |caps| && caps[i].name == k
    decreases |caps|
  {
    if |caps| == 0 then None
    else match LastFor(caps[1..], k, d)
      case Some(v) => Some(v)
      case None => if caps[0].name == k then Some(Substitute(caps[0], d)) else None
  }

  /** In overwrite mode every captured key holds the last value captured
      for it, and other keys are untouched. */
  lemma {:induction false} StoreOverwrites(vals: map<string, Slot>, caps: seq<Cap>, d: Defaults, k: string)
    ensures LastFor(caps, k, d).Some? ==>
              k in Store(vals, caps, d, false) && Store(vals, caps, d, false)[k] == One(LastFor(caps, k, d).value)
    ensures LastFor(caps, k, d).None? && k in vals ==>
              k in Store(vals, caps, d, false) && Store(vals, caps, d, false)[k] == vals[k]
    decreases |caps|
  {
    if |caps| > 0 {
      var c := caps[0];
      StoreOverwrites(vals[c.name := One(Substitute(c, d))], caps[1..], d, k);
    }
  }

  // ---------------------------------------------------------------------
  // One __checkArg call

  /** The rule's capture-multiple loop stops: every match of its
      capture-multiple expression is non-empty. */
  predicate Terminates(r: Rule) {
    r.cm.Some? ==> Consumes(r.cm.value)
  }

  /** The values a captured match builds on: the earlier object, or `{}`
      for the first captured match of a call to a single-valued rule and
      for a rule whose value was a flag. */
  function AcceptBase(r: Rule, e: Entry, first: bool): map<string, Slot> {
    if e.values.Caps? && !(first && !r.multiple) then e.values.m else map[]
  }

  /** The updated answer after an accepted match `m`, and the new
      `firstRound`. With a capture-multiple expression the texts collected
      in one call are chained into the existing record, whose index stays
      that of the first match. */
  function Accept(r: Rule, e: Entry, m: Match, first: bool): (res: (Entry, bool))
    ensures res.0.result.Some?
    ensures r.cm.None? || e.result.None? ==> res.0.result.value == MatchRecord(m.index, m.text, "")
    ensures r.cm.Some? && e.result.Some? ==>
              res.0.result.value == e.result.value.(temp := e.result.value.temp + m.text)
    ensures |m.caps| == 0 && r.cm.None? ==> res.0.values == Flag(true)
    ensures |m.caps| == 0 && r.cm.Some? ==> res.0.values == e.values
    ensures |m.caps| == 0 ==> res.1 == first
    ensures |m.caps| > 0 ==> !res.1 && res.0.values.Caps?
  {
    var rec := if r.cm.Some? && e.result.Some? then e.result.value.(temp := e.result.value.temp + m.text)
               else MatchRecord(m.index, m.text, "");
    if |m.caps| > 0 then
      (Entry(Caps(Store(AcceptBase(r, e, first), m.caps, r.values, r.multiple || r.cm.Some?)), Some(rec)), false)
    else if r.cm.None? then (Entry(Flag(true), Some(rec)), first)
    else (Entry(e.values, Some(rec)), first)
  }

  /** What a form check leaves: the rest of the argument text, the
      answer, and whether anything matched so far. */
  datatype Scan = Scan(arg: string, entry: Entry, matched: bool)

  /** The `while (!done)` loop of one form: `cur` is the form's own
      expression at first and the capture-multiple expression after the
      first accepted match. A match is accepted when it starts at or
      before `allow`; the text up to its end is then dropped. */
  function RunForm(r: Rule, cur: Pattern, onCm: bool, arg: string, allow: nat, e: Entry,
                   first: bool, matched: bool, exec: Matcher): (res: Scan)
    requires Sound(exec) && Terminates(r)
    requires onCm ==> r.cm == Some(cur)
    ensures |res.arg| <= |arg|
    ensures matched ==> res.matched
    ensures e.result.Some? ==> res.entry.result.Some?
    ensures res.matched && !matched ==> res.entry.result.Some?
    ensures !res.matched ==> res == Scan(arg, e, matched)
    decreases |arg|, if onCm then 0 else 1
  {
    var hit := exec(cur, arg);
    if hit.Some? && hit.value.index <= allow then
      var m := hit.value;
      var (e2, first2) := Accept(r, e, m, first);
      var rest := arg[m.index + |m.text|..];
      if r.cm.Some? then RunForm(r, r.cm.value, true, rest, allow, e2, first2, true, exec)
      else Scan(rest, e2, true)
    else Scan(arg, e, matched)
  }

  /** One turn of the form loop that accepts the match `m` of a rule
      without a capture-multiple expression ends it. */
  lemma RunFormAcceptsLast(r: Rule, cur: Pattern, onCm: bool, arg: string, allow: nat, e: Entry,
                           first: bool, matched: bool, exec: Matcher, m: Match, e2: Entry, first2: bool)
    requires Sound(exec) && Terminates(r) && (onCm ==> r.cm == Some(cur)) && r.cm.None?
    requires exec(cur, arg) == Some(m) && m.index <= allow
    requires (e2, first2) == Accept(r, e, m, first)
    ensures m.index + |m.text| <= |arg|
    ensures RunForm(r, cur, onCm, arg, allow, e, first, matched, exec) == Scan(arg[m.index + |m.text|..], e2, true)
  {
  }

  /** One turn of the form loop that accepts the match `m` of a rule
      with a capture-multiple expression goes on with that expression. */
  lemma RunFormAcceptsCm(r: Rule, cur: Pattern, onCm: bool, arg: string, allow: nat, e: Entry,
                         first: bool, matched: bool, exec: Matcher, m: Match, e2: Entry, first2: bool)
    requires Sound(exec) && Terminates(r) && (onCm ==> r.cm == Some(cur)) && r.cm.Some?
    requires exec(cur, arg) == Some(m) && m.index <= allow
    requires (e2, first2) == Accept(r, e, m, first)
    ensures m.index + |m.text| <= |arg|
    ensures RunForm(r, cur, onCm, arg, allow, e, first, matched, exec) ==
            RunForm(r, r.cm.value, true, arg[m.index + |m.text|..], allow, e2, first2, true, exec)
  {
  }

  /** A capture-multiple match always consumes text. */
  lemma CmMatchShrinks(r: Rule, cur: Pattern, arg: string, exec: Matcher)
    requires Sound(exec) && Terminates(r) && r.cm == Some(cur) && exec(cur, arg).Some?
    ensures |exec(cur, arg).value.text| > 0
  {
    assert Consumes(cur);
  }

  /** One turn of the form loop that accepts nothing ends it. */
  lemma RunFormStops(r: Rule, cur: Pattern, onCm: bool, arg: string, allow: nat, e: Entry,
                     first: bool, matched: bool, exec: Matcher)
    requires Sound(exec) && Terminates(r) && (onCm ==> r.cm == Some(cur))
    requires !(exec(cur, arg).Some? && exec(cur, arg).value.index <= allow)
    ensures RunForm(r, cur, onCm, arg, allow, e, first, matched, exec) == Scan(arg, e, matched)
  {
  }

  /** After a form's loop: `found` takes the collected text, which a
      capture-multiple rule then clears. */
  function EndForm(r: Rule, e: Entry): (res: Entry)
    ensures res.values == e.values && res.result.Some? == e.result.Some?
    ensures e.result.Some? ==> res.result.value.found == e.result.value.temp &&
                               res.result.value.index == e.result.value.index
    ensures e.result.Some? && r.cm.Some? ==> res.result.value.temp == ""
    ensures e.result.Some? && r.cm.None? ==> res.result.value.temp == e.result.value.temp
  {
    match e.result
    case None => e
    case Some(rec) => Entry(e.values, Some(rec.(found := rec.temp, temp := if r.cm.Some? then "" else rec.temp)))
  }

  /** One pass of the `for (const pType of ['short', 'long'])` loop. */
  function FormSpec(r: Rule, form: Option<Pattern>, sc: Scan, allow: nat, exec: Matcher): (res: Scan)
    requires Sound(exec) && Terminates(r)
    ensures |res.arg| <= |sc.arg|
    ensures sc.matched ==> res.matched
    ensures sc.entry.result.Some? ==> res.entry.result.Some?
    ensures res.matched && !sc.matched ==> res.entry.result.Some?
    ensures !res.matched ==> res.arg == sc.arg && res.entry.values == sc.entry.values
  {
    if form.None? then sc
    else
      var s := RunForm(r, form.value, false, sc.arg, allow, sc.entry, true, sc.matched, exec);
      Scan(s.arg, EndForm(r, s.entry), s.matched)
  }

  /** `__checkArg(arg, id, r, allow)` on the answer `e`: the short form,
      then the long form on what the short form left. A call that
      matches nothing leaves the values alone; one that matches leaves a
      result record. */
  function CheckArgSpec(r: Rule, arg: string, allow: nat, e: Entry, exec: Matcher): (res: Scan)
    requires Sound(exec) && Terminates(r)
    ensures res.matched ==> res.entry.result.Some?
    ensures !res.matched ==> res.entry.values == e.values
    ensures e.result.None? && !res.matched ==> res.entry == e
  {
    FormSpec(r, r.long, FormSpec(r, r.short, Scan(arg, e, false), allow, exec), allow, exec)
  }

  // ---------------------------------------------------------------------
  // parse

  /** The stop-rule scan: the answers, the smallest stop index so far, the
      length of that rule's `found`, and the `exitOnStop` snapshot. */
  datatype StopState = StopState(askfor: Answers, min: nat, len: nat, last: Answers)

  /** Every rule of the registry can be checked. */
  ghost predicate Checkable(reg: RuleSet) {
    forall id :: id in reg.params ==> Terminates(reg.params[id])
  }

  function StopStep(reg: RuleSet, exitOnStop: bool, args: string, st: StopState, id: string, exec: Matcher): (res: StopState)
    requires Sound(exec) && Checkable(reg) && id in reg.params && id in st.askfor
    ensures res.askfor.Keys == st.askfor.Keys || res.askfor == ResetState(reg)
    ensures res.min <= st.min
  {
    var r := reg.params[id];
    if !r.stopParse then st
    else
      var sc := CheckArgSpec(r, args, |args|, st.askfor[id], exec);
      var a := st.askfor[id := sc.entry];
      if sc.matched && sc.entry.result.value.index < st.min then
        var rec := sc.entry.result.value;
        if exitOnStop then StopState(ResetState(reg), rec.index, |rec.found|, a)
        else StopState(a, rec.index, |rec.found|, st.last)
      else StopState(a, st.min, st.len, st.last)
  }

  /** Every id in the registry's key order has a rule. */
  predicate KeysListed(reg: RuleSet) {
    forall i :: 0 <= i < |reg.ids| ==> reg.ids[i] in reg.params
  }

  /** The scan over the first `n` rules, in key order. */
  function StopScan(reg: RuleSet, exitOnStop: bool, args: string, n: nat, exec: Matcher): (res: StopState)
    requires Sound(exec) && Checkable(reg) && KeysListed(reg) && n <= |reg.ids|
    ensures res.askfor.Keys == reg.params.Keys
    ensures res.min <= |args|
    decreases n
  {
    if n == 0 then StopState(ResetState(reg), |args|, 0, map[])
    else StopStep(reg, exitOnStop, args, StopScan(reg, exitOnStop, args, n - 1, exec), reg.ids[n - 1], exec)
  }

  /** `b` holds the same answer as `a` for every stop rule. */
  predicate StopsKept(reg: RuleSet, a: Answers, b: Answers) {
    forall y :: y in a && y in b && y in reg.params && reg.params[y].stopParse ==> b[y] == a[y]
  }

  /** One rule's turn in a pass: a non-stop rule is checked at index 0 and
      its `found` text is removed by a first-occurrence replace. */
  function PassStep(reg: RuleSet, a: Answers, s: string, id: string, exec: Matcher): (res: (Answers, string))
    requires Sound(exec) && Checkable(reg) && id in reg.params && id in a
    ensures res.0.Keys == a.Keys
    ensures |res.1| <= |s| && (|res.1| == |s| ==> res.1 == s)
    ensures StopsKept(reg, a, res.0)
  {
    var r := reg.params[id];
    if r.stopParse then (a, s)
    else
      var sc := CheckArgSpec(r, s, 0, a[id], exec);
      var a2 := a[id := sc.entry];
      if sc.matched then (a2, ReplaceFirst(s, sc.entry.result.value.found)) else (a2, s)
  }

  /** A pass over the first `n` rules, in key order. */
  function Pass(reg: RuleSet, a: Answers, s: string, n: nat, exec: Matcher): (res: (Answers, string))
    requires Sound(exec) && Checkable(reg) && KeysListed(reg) && n <= |reg.ids| && a.Keys == reg.params.Keys
    ensures res.0.Keys == a.Keys
    ensures |res.1| <= |s| && (|res.1| == |s| ==> res.1 == s)
    ensures StopsKept(reg, a, res.0)
    decreases n
  {
    if n == 0 then (a, s)
    else
      var prev := Pass(reg, a, s, n - 1, exec);
      PassStep(reg, prev.0, prev.1, reg.ids[n - 1], exec)
  }

  /** Passes, each followed by a trim, until a pass leaves the string as
      it was. Every pass only shortens the string, so this stops; the
      string it returns is trimmed. */
  function Converge(reg: RuleSet, a: Answers, s: string, exec: Matcher, sep: char): (res: (Answers, string))
    requires Sound(exec) && Checkable(reg) && KeysListed(reg) && a.Keys == reg.params.Keys
    ensures res.0.Keys == a.Keys
    ensures |res.1| <= |s|
    ensures CleanEnds(res.1, sep)
    decreases |s|
  {
    var p := Pass(reg, a, s, |reg.ids|, exec);
    var t := Trim(p.1, sep);
    if t != s then Converge(reg, p.0, t, exec, sep) else (p.0, t)
  }

  /** `s.slice(k)`. */
  function SliceFrom(s: string, k: nat): string {
    if k <= |s| then s[k..] else ""
  }

  /** What `parse` leaves: the answers, `remain`, and the returned text. */
  datatype ParseResult = ParseResult(askfor: Answers, remain: string, rest: string)

  ghost predicate Parsable(reg: RuleSet) {
    Valid(reg) && Checkable(reg)
  }

  /** `parse(tokens)` on the registry `reg`, with `exec` as the
      regular-expression engine. */
  function ParseSpec(reg: RuleSet, opts: Options, exec: Matcher, tokens: seq<string>): (res: ParseResult)
    requires Parsable(reg) && Sound(exec)
  {
    var args := Join(tokens, opts.separator);
    Finish(reg, opts, exec, args, StopScan(reg, opts.exitOnStop, args, |reg.ids|, exec))
  }

  /** What `parse` does after the stop-rule scan `st` of `args`: with a
      stop rule matched, `remain` is what follows its match and only the
      text before it is parsed (or returned at once, under `exitOnStop`,
      with the saved answers); then the passes run to a fixed point. */
  function Finish(reg: RuleSet, opts: Options, exec: Matcher, args: string, st: StopState): (res: ParseResult)
    requires Sound(exec) && Checkable(reg) && KeysListed(reg)
    requires st.askfor.Keys == reg.params.Keys && st.min <= |args|
  {
    if st.min != |args| && opts.exitOnStop then
      ParseResult(st.last, SliceFrom(args, st.min + st.len), args[..st.min])
    else
      var remain := if st.min != |args| then SliceFrom(args, st.min + st.len) else "";
      var parsed := if st.min != |args| then args[..st.min] else args;
      var c := Converge(reg, st.askfor, parsed, exec, opts.separator);
      ParseResult(c.0, remain, c.1)
  }
}

=== FILE: instance.dfy ===
/** The `Reargs` class: rules and display groups registered by `set`,
    answers rebuilt by `reset` and filled in by `parse`. Each method
    changes the fields step by step as the class does, and states its new
    state through the functions of the `Registry` and `Engine` modules. */
module Instance {
  import opened Common
  import opened Patterns
  import opened Registry
  import opened Engine

  class Reargs {
    var ids: seq<string>              // the keys of `params`, in insertion order
    var params: map<string, Rule>
    var groupNames: seq<string>       // the keys of `groups`, in insertion order
    var groups: map<string, Group>
    var opts: Options
    var error: Option<SetupError>
    var args: seq<string>
    var askfor: Answers
    var remain: string
    const exec: Matcher               // the regular-expression engine

    /** The registry part of the state. */
    function Reg(): RuleSet
      reads this`ids, this`params, this`groupNames, this`groups
    {
      Registry.RuleSet(ids, params, groupNames, groups)
    }

    ghost predicate Valid()
      reads this`ids, this`params, this`groupNames, this`groups
    {
      Registry.Valid(Reg()) && Sound(exec)
    }

    /** An instance with no rules yet. */
    constructor (opts: Options)
      ensures Valid() && Reg() == EmptyRuleSet
      ensures this.opts == opts && error == None && askfor == map[] && remain == "" && args == []
      ensures exec == Greedy(opts.separator)
    {
      exec := Greedy(opts.separator);
      ids := [];
      params := map[];
      groupNames := [];
      groups := map[];
      this.opts := opts;
      GreedySound(opts.separator);
      error := None;
      args := [];
      askfor := map[];
      remain := "";
    }

    /** `new Reargs(defs, opts)`: registers the definitions, and fails with
        the error of the first unacceptable one. */
    static method Create(defs: seq<(string, RuleDef)>, opts: Options) returns (r: Result<Reargs, SetupError>)
      ensures var o := SetupSpec(EmptyRuleSet, defs, opts);
              && (r.Success? <==> o.error.None?)
              && (r.Failure? ==> o.error == Some(r.error))
              && (r.Success? ==> fresh(r.value) && r.value.Valid() && r.value.Reg() == o.reg &&
                                  r.value.opts == opts && r.value.exec == Greedy(opts.separator))
    {
      var x := new Reargs(opts);
      var ok := x.Setup(defs);
      if !ok {
        return Failure(x.error.value);
      }
      return Success(x);
    }

    /** `setup(defs)`: `set` on each definition in turn, stopping at the
        first one refused. */
    method Setup(defs: seq<(string, RuleDef)>) returns (ok: bool)
      requires Valid()
      modifies this
      ensures Valid()
      ensures var o := SetupSpec(old(Reg()), defs, opts);
              Reg() == o.reg && ok == o.error.None? && (!ok ==> error == o.error)
      ensures ok ==> error == old(error)
      ensures opts == old(opts) && askfor == old(askfor) && remain == old(remain) && args == old(args)
    {
      for i := 0 to |defs|
        invariant Valid()
        invariant opts == old(opts) && askfor == old(askfor) && remain == old(remain) && args == old(args)
        invariant error == old(error)
        invariant SetupSpec(old(Reg()), defs, opts) == SetupSpec(Reg(), defs[i..], opts)
      {
        ghost var before := Reg();
        assert defs[i..][0] == defs[i] && defs[i..][1..] == defs[i + 1..];
        ok := Set(defs[i].0, defs[i].1);
        if !ok {
          return;
        }
      }
      ok := true;
    }

    /** `set(id, d)`: checks and normalises the definition, files its
        display entry in its group and stores the rule. */
    method Set(id: string, d: RuleDef) returns (ok: bool)
      requires Valid()
      modifies this
      ensures Valid()
      ensures ok == Acceptable(d)
      ensures ok ==> Reg() == SetSpec(old(Reg()), id, d, opts).value && error == old(error)
      ensures !ok ==> Reg() == old(Reg()) && error == Some(Normalize(id, d, opts).error)
      ensures opts == old(opts) && askfor == old(askfor) && remain == old(remain) && args == old(args)
    {
      var res := Prepare(id, d, opts);
      if res.Failure? {
        error := Some(res.error);
        return false;
      }
      Install(id, res.value);
      ok := true;
      SetValid(old(Reg()), id, d, opts);
    }

    /** The checks and conversions of `set`: each form, short first, must
        be a string or an expression; strings are compiled, and each
        form's display text is collected for the rule's display string. */
    static method Prepare(id: string, d: RuleDef, opts: Options) returns (res: Result<Rule, SetupError>)
      ensures res == Normalize(id, d, opts)
    {
      if d.short.Absent? && d.long.Absent? {
        return Failure(MissingForms(id));
      }
      var forms := [d.short, d.long];
      var displays: seq<string> := [];
      var pats: seq<Option<Pattern>> := [];
      for i := 0 to 2
        invariant i >= 1 ==> !d.short.OtherType?
        invariant i >= 2 ==> !d.long.OtherType?
        invariant displays == if i == 0 then [] else if i == 1 then FormDisplay(d.short)
                              else FormDisplay(d.short) + FormDisplay(d.long)
        invariant |pats| == i && forall j :: 0 <= j < i ==> pats[j] == CompileForm(forms[j], d.captureMultiple)
      {
        match forms[i]
        case Absent =>
          pats := pats + [None];
        case OtherType(t) =>
          return Failure(Unsupported(id, if i == 0 then Short else Long, t));
        case Text(src, _) =>
          pats := pats + [CompileForm(forms[i], d.captureMultiple)];
          displays := displays + [HumanReadable(src)];
        case Compiled(src, _) =>
          pats := pats + [CompileForm(forms[i], d.captureMultiple)];
          displays := displays + [HumanReadable(src)];
      }
      var hr := if d.humanReadable.Some? then d.humanReadable.value
                else JoinDisplays(displays, opts.longShortDelimiter);
      if d.short.Absent? {
        hr := Repeat(' ', opts.alignLongIfNoShort) + hr;
      }
      res := Success(Rule(pats[0], pats[1], CmPattern(d.captureMultiple), CmTruthy(d.captureMultiple),
                          d.group.GetOr(DefaultGroup), d.multiple, d.stopParse, d.values, hr, d.help, d.hidden));
    }

    /** Stores a normalised rule: its display entry goes at the end of its
        group (created last, with no padding yet, when new), the group's
        padding widens when the entry does not fit, and the rule goes under
        `id`, a new id last. */
    method Install(id: string, rule: Rule)
      modifies this
      ensures Reg() == Insert(old(Reg()), id, rule, opts)
      ensures opts == old(opts) && error == old(error)
      ensures askfor == old(askfor) && remain == old(remain) && args == old(args)
    {
      var g := rule.group;
      var grp := Group([], 0, opts.prePaddingSpaces);
      var names := groupNames;
      if g in groups {
        grp := groups[g];
      } else {
        names := names + [g];
      }
      var entry := Member(rule.help, rule.humanReadable, rule.hidden);
      grp := grp.(members := grp.members + [entry]);
      var width := MaxLineLength(rule.humanReadable);
      if grp.padding < width {
        grp := grp.(padding := width + 1);
      }
      var newIds := ids;
      if id !in params {
        newIds := ids + [id];
      }
      assert grp == AddMember(GroupFor(Reg(), g, opts), entry);
      ids, params, groupNames, groups := newIds, params[id := rule], names, groups[g := grp];
    }

    /** `reset()`: every registered rule gets its reset answer, and
        `remain` is emptied. */
    method Reset()
      requires Valid()
      modifies this
      ensures askfor == ResetState(Reg()) && remain == ""
      ensures Reg() == old(Reg()) && opts == old(opts) && error == old(error) && args == old(args)
    {
      askfor := ResetAnswers(ids, params);
      remain := "";
    }

    /** The loop of `reset` over the rules, in registration order. */
    static method ResetAnswers(ids: seq<string>, params: map<string, Rule>) returns (a: Answers)
      requires forall id :: id in params <==> id in ids
      ensures a == ResetState(RuleSet(ids, params, [], map[]))
    {
      a := map[];
      for i := 0 to |ids|
        invariant forall id :: id in a <==> id in ids[..i]
        invariant forall id :: id in a ==> id in params && a[id] == ResetEntry(params[id])
      {
        var id := ids[i];
        var r := params[id];
        var values := Caps(map[]);
        if !r.multiple && !r.cmSet {
          values := DefaultValue(r.values);
        }
        assert ids[..i + 1] == ids[..i] + [id];
        a := a[id := Entry(values, None)];
      }
      assert a.Keys == params.Keys;
    }

    /** One form of `__checkArg`: the form loop on the rule's answer,
        then the end-of-form update of its result record. */
    method CheckForm(arg0: string, id: string, r: Rule, form: Option<Pattern>, allow: nat, found0: bool)
      returns (arg: string, found: bool)
      requires id in askfor && Sound(exec) && Terminates(r)
      modifies this
      ensures var s := FormSpec(r, form, Scan(arg0, old(askfor)[id], found0), allow, exec);
              askfor == old(askfor)[id := s.entry] && arg == s.arg && found == s.matched
      ensures Reg() == old(Reg()) && opts == old(opts) && error == old(error)
      ensures remain == old(remain) && args == old(args)
    {
      arg, found := arg0, found0;
      ghost var sc := Scan(arg0, old(askfor)[id], found0);
      if form.None? {
        assert FormSpec(r, form, sc, allow, exec) == sc;
        assert askfor == old(askfor)[id := sc.entry];
        return;
      }
      var entry;
      arg, entry, found := RunFormLoop(r, form.value, arg0, allow, askfor[id], found0, exec);
      entry := CloseForm(r, entry);
      assert FormSpec(r, form, sc, allow, exec) == Scan(arg, entry, found);
      askfor := askfor[id := entry];
    }

    /** The `while (!done)` loop of one form on the rule's answer `e0`:
        the form's expression first, then the capture-multiple expression
        for as long as it matches at or before `allow`. */
    static method RunFormLoop(r: Rule, form: Pattern, arg0: string, allow: nat, e0: Entry, found0: bool, exec: Matcher)
      returns (arg: string, e: Entry, found: bool)
      requires Sound(exec) && Terminates(r)
      ensures Scan(arg, e, found) == RunForm(r, form, false, arg0, allow, e0, true, found0, exec)
    {
      arg, e, found := arg0, e0, found0;
      var cur := form;
      var onCm := false;
      var done := false;
      var first := true;
      ghost var target := RunForm(r, form, false, arg0, allow, e0, true, found0, exec);
      while !done
        invariant onCm ==> r.cm == Some(cur)
        invariant !done ==> RunForm(r, cur, onCm, arg, allow, e, first, found, exec) == target
        invariant done ==> Scan(arg, e, found) == target
        decreases if done then 0 else 1, |arg|, if onCm then 0 else 1
      {
        var m := exec(cur, arg);
        if m.Some? && m.value.index <= allow {
          var hit := m.value;
          var e2, first2 := Record(r, e, hit, first);
          if r.cm.Some? {
            RunFormAcceptsCm(r, cur, onCm, arg, allow, e, first, found, exec, hit, e2, first2);
            if onCm {
              CmMatchShrinks(r, cur, arg, exec);
            }
          } else {
            RunFormAcceptsLast(r, cur, onCm, arg, allow, e, first, found, exec, hit, e2, first2);
          }
          e, first := e2, first2;
          found := true;
          arg := arg[hit.index + |hit.text|..];
          if r.cm.Some? {
            cur := r.cm.value;
            onCm := true;
          } else {
            done := true;
          }
        } else {
          RunFormStops(r, cur, onCm, arg, allow, e, first, found, exec);
          done := true;
        }
      }
    }

    /** An accepted match: the result record is created or extended, and
        the values are updated from the named groups (or set to `true`
        when there are none). Returns the new `firstRound`. */
    static method Record(r: Rule, e0: Entry, hit: Match, first: bool) returns (e: Entry, firstAfter: bool)
      ensures (e, firstAfter) == Accept(r, e0, hit, first)
    {
      firstAfter := first;
      var rec := MatchRecord(hit.index, hit.text, "");
      if r.cm.Some? && e0.result.Some? {
        rec := e0.result.value.(temp := e0.result.value.temp + hit.text);
      }
      var values := e0.values;
      if |hit.caps| > 0 {
        var vals: map<string, Slot> := map[];
        if values.Caps? && !(first && !r.multiple) {
          vals := values.m;
        }
        firstAfter := false;
        vals := StoreCaptures(vals, hit.caps, r.values, r.multiple || r.cm.Some?);
        values := Caps(vals);
      } else if r.cm.None? {
        values := Flag(true);
      }
      e := Entry(values, Some(rec));
    }

    /** The end of a form: `found` takes the collected text, which a
        capture-multiple rule then clears. */
    static method CloseForm(r: Rule, e0: Entry) returns (e: Entry)
      ensures e == EndForm(r, e0)
    {
      e := e0;
      if e.result.Some? {
        var rec := e.result.value;
        rec := rec.(found := rec.temp);
        if r.cm.Some? {
          rec := rec.(temp := "");
        }
        e := e.(result := Some(rec));
      }
    }

    /** The loop over a match's named groups: each value, after default
        substitution, is appended to or overwrites its key. */
    static method StoreCaptures(vals0: map<string, Slot>, caps: seq<Cap>, d: Defaults, append: bool)
      returns (vals: map<string, Slot>)
      ensures vals == Store(vals0, caps, d, append)
    {
      vals := vals0;
      for k := 0 to |caps|
        invariant Store(vals0, caps, d, append) == Store(vals, caps[k..], d, append)
      {
        assert caps[k..][0] == caps[k] && caps[k..][1..] == caps[k + 1..];
        var c := caps[k];
        var v := Substitute(c, d);
        if append {
          vals := vals[c.name := Append(vals, c.name, v)];
        } else {
          vals := vals[c.name := One(v)];
        }
      }
    }

    /** `__checkArg(arg, id, r, allow)`: the short form, then the long
        form on the text the short form left. */
    method CheckArg(arg0: string, id: string, r: Rule, allow: nat) returns (found: bool)
      requires id in askfor && Sound(exec) && Terminates(r)
      modifies this
      ensures var s := CheckArgSpec(r, arg0, allow, old(askfor)[id], exec);
              askfor == old(askfor)[id := s.entry] && found == s.matched
      ensures Reg() == old(Reg()) && opts == old(opts) && error == old(error)
      ensures remain == old(remain) && args == old(args)
    {
      var arg := arg0;
      arg, found := CheckForm(arg, id, r, r.short, allow, false);
      arg, found := CheckForm(arg, id, r, r.long, allow, found);
    }

    /** `parse(tokens)`: join, reset, scan the stop rules, cut at the
        leftmost one, then run passes of the other rules until nothing
        changes. The result depends only on the rules and the tokens, so
        parsing the same tokens again gives the same state. */
    method Parse(tokens: seq<string>) returns (rest: string)
      requires Valid() && Checkable(Reg())
      modifies this
      ensures var res := ParseSpec(old(Reg()), opts, exec, tokens);
              askfor == res.askfor && remain == res.remain && rest == res.rest
      ensures Reg() == old(Reg()) && opts == old(opts) && error == old(error) && args == tokens
    {
      args := tokens;
      var text := Join(tokens, opts.separator);
      var minIndex, stopLength, lastAskfor := StopPhase(text);
      rest := Conclude(text, minIndex, stopLength, lastAskfor);
    }

    /** The first part of `parse`: `reset`, then every stop rule checked
        against the whole text, keeping the leftmost match. */
    method StopPhase(text: string) returns (minIndex: nat, stopLength: nat, lastAskfor: Answers)
      requires Valid() && Checkable(Reg())
      modifies this
      ensures StopState(askfor, minIndex, stopLength, lastAskfor) == StopScan(old(Reg()), opts.exitOnStop, text, |old(ids)|, exec)
      ensures Valid() && Reg() == old(Reg()) && opts == old(opts) && error == old(error) && args == old(args) && remain == ""
    {
      Reset();
      ghost var reg := Reg();
      minIndex, stopLength, lastAskfor := |text|, 0, map[];
      for k := 0 to |ids|
        invariant Reg() == reg && opts == old(opts) && error == old(error) && args == old(args)
        invariant remain == ""
        invariant StopState(askfor, minIndex, stopLength, lastAskfor) == StopScan(reg, opts.exitOnStop, text, k, exec)
      {
        minIndex, stopLength, lastAskfor := StopTurn(text, k, minIndex, stopLength, lastAskfor);
      }
    }

    /** One stop rule's turn in the scan: checked against the whole text,
        it becomes the leftmost stop when it matches before the current
        one; with `exitOnStop` the answers are then saved and reset. */
    method StopTurn(text: string, k: nat, minIndex: nat, stopLength: nat, lastAskfor: Answers)
      returns (min: nat, len: nat, last: Answers)
      requires Valid() && Checkable(Reg()) && k < |ids|
      requires StopState(askfor, minIndex, stopLength, lastAskfor) == StopScan(Reg(), opts.exitOnStop, text, k, exec)
      modifies this
      ensures StopState(askfor, min, len, last) == StopScan(old(Reg()), opts.exitOnStop, text, k + 1, exec)
      ensures Valid() && Reg() == old(Reg()) && opts == old(opts) && error == old(error) && args == old(args)
      ensures old(remain) == "" ==> remain == ""
    {
      min, len, last := minIndex, stopLength, lastAskfor;
      var id := ids[k];
      var r := params[id];
      if r.stopParse {
        var hit := CheckArg(text, id, r, |text|);
        if hit {
          var index := askfor[id].result.value.index;
          if index < min {
            min := index;
            len := |askfor[id].result.value.found|;
            if opts.exitOnStop {
              last := askfor;
              Reset();
            }
          }
        }
      }
    }

    /** After the stop-rule scan: cut the text at the leftmost stop match
        (returning at once under `exitOnStop`), then settle the rest. */
    method Conclude(text: string, minIndex: nat, stopLength: nat, lastAskfor: Answers) returns (rest: string)
      requires Valid() && Checkable(Reg()) && askfor.Keys == params.Keys && minIndex <= |text| && remain == ""
      modifies this
      ensures ParseResult(askfor, remain, rest) ==
              Finish(old(Reg()), opts, exec, text, StopState(old(askfor), minIndex, stopLength, lastAskfor))
      ensures Reg() == old(Reg()) && opts == old(opts) && error == old(error) && args == old(args)
    {
      ghost var want := Finish(Reg(), opts, exec, text, StopState(askfor, minIndex, stopLength, lastAskfor));
      if minIndex != |text| && opts.exitOnStop {
        remain := SliceFrom(text, minIndex + stopLength);
        rest := text[..minIndex];
        askfor := lastAskfor;
        assert ParseResult(askfor, remain, rest) == want;
      } else {
        var cut := if minIndex != |text| then SliceFrom(text, minIndex + stopLength) else "";
        var parsed := if minIndex != |text| then text[..minIndex] else text;
        ghost var c := Converge(Reg(), askfor, parsed, exec, opts.separator);
        assert want == ParseResult(c.0, cut, c.1);
        rest := Settle(parsed);
        remain := cut;
        assert ParseResult(askfor, remain, rest) == want;
      }
    }

    /** The second part of `parse`: passes, each followed by a trim, until
        a pass leaves the text as it was. */
    method Settle(text0: string) returns (text: string)
      requires Valid() && Checkable(Reg()) && askfor.Keys == params.Keys
      modifies this
      ensures (askfor, text) == Converge(old(Reg()), old(askfor), text0, exec, opts.separator)
      ensures Reg() == old(Reg()) && opts == old(opts) && error == old(error)
      ensures args == old(args) && remain == old(remain)
    {
      text := text0;
      var lastRound := text;
      var done := false;
      while !done
        invariant Valid() && Reg() == old(Reg()) && opts == old(opts) && error == old(error)
        invariant args == old(args) && remain == old(remain)
        invariant askfor.Keys == params.Keys
        invariant !done ==> text == lastRound
        invariant !done ==>
          Converge(Reg(), askfor, text, exec, opts.separator) == Converge(Reg(), old(askfor), text0, exec, opts.separator)
        invariant done ==> (askfor, text) == Converge(Reg(), old(askfor), text0, exec, opts.separator)
        decreases if done then 0 else 1, |lastRound|
      {
        text := OnePass(text);
        text := Trim(text, opts.separator);
        if text != lastRound {
          lastRound := text;
        } else {
          done := true;
        }
      }
    }

    /** One pass: every rule that is not a stop rule is checked at index 0,
        and the text it matched is removed from the working string. */
    method OnePass(text0: string) returns (text: string)
      requires Valid() && Checkable(Reg()) && askfor.Keys == params.Keys
      modifies this
      ensures (askfor, text) == Engine.Pass(old(Reg()), old(askfor), text0, |old(ids)|, exec)
      ensures Reg() == old(Reg()) && opts == old(opts) && error == old(error)
      ensures args == old(args) && remain == old(remain)
    {
      text := text0;
      ghost var reg := Reg();
      for k := 0 to |ids|
        invariant Reg() == reg && opts == old(opts) && error == old(error)
        invariant args == old(args) && remain == old(remain)
        invariant (askfor, text) == Engine.Pass(reg, old(askfor), text0, k, exec)
      {
        text := PassTurn(text0, old(askfor), k, text);
      }
    }

    /** One rule's turn in a pass: a rule that is not a stop rule is
        checked at index 0, and the text it matched is removed from the
        working string with a first-occurrence replace. */
    method PassTurn(ghost text0: string, ghost start: Answers, k: nat, text1: string) returns (text: string)
      requires Valid() && Checkable(Reg()) && k < |ids| && start.Keys == params.Keys
      requires (askfor, text1) == Engine.Pass(Reg(), start, text0, k, exec)
      modifies this
      ensures (askfor, text) == Engine.Pass(old(Reg()), start, text0, k + 1, exec)
      ensures Valid() && Reg() == old(Reg()) && opts == old(opts) && error == old(error)
      ensures args == old(args) && remain == old(remain)
    {
      text := text1;
      var id := ids[k];
      var r := params[id];
      if !r.stopParse {
        var hit := CheckArg(text, id, r, 0);
        if hit {
          text := ReplaceFirst(text, askfor[id].result.value.found);
        }
      }
    }
  }
}

=== FILE: parse_properties.dfy ===
/** Properties of `parse` and `__checkArg` stated over the engine's
    functions: what an empty command line gives, which stop rule wins, what
    the passes leave alone, where a pass accepts matches, and how an
    accepted match replaces or extends the stored captures. */
module ParseProperties {
  import opened Common
  import opened Patterns
  import opened Registry
  import opened Engine

  lemma ValidListed(reg: RuleSet)
    requires Valid(reg)
    ensures KeysListed(reg)
  {
    forall i | 0 <= i < |reg.ids| ensures reg.ids[i] in reg.params {
      assert reg.ids[i] in reg.ids;
    }
  }

  // ---------------------------------------------------------------------
  // An empty command line

  /** Every form of the rule needs at least one character to match. */
  predicate FormsConsume(r: Rule) {
    (r.short.Some? ==> Consumes(r.short.value)) && (r.long.Some? ==> Consumes(r.long.value))
  }

  ghost predicate AllConsume(reg: RuleSet) {
    forall id :: id in reg.params ==> FormsConsume(reg.params[id])
  }

  /** On the empty text no form matches, so a fresh answer stays as it is. */
  lemma NothingMatchesEmpty(r: Rule, allow: nat, e: Entry, exec: Matcher)
    requires Sound(exec) && Terminates(r) && FormsConsume(r) && e.result.None?
    ensures CheckArgSpec(r, "", allow, e, exec) == Scan("", e, false)
  {
    if r.short.Some? {
      assert exec(r.short.value, "").None?;
    }
    if r.long.Some? {
      assert exec(r.long.value, "").None?;
    }
  }

  lemma {:induction false} StopScanEmpty(reg: RuleSet, exitOnStop: bool, n: nat, exec: Matcher)
    requires Sound(exec) && Checkable(reg) && KeysListed(reg) && n <= |reg.ids| && AllConsume(reg)
    ensures StopScan(reg, exitOnStop, "", n, exec) == StopState(ResetState(reg), 0, 0, map[])
  {
    if n > 0 {
      StopScanEmpty(reg, exitOnStop, n - 1, exec);
      var id := reg.ids[n - 1];
      var r := reg.params[id];
      if r.stopParse {
        NothingMatchesEmpty(r, 0, ResetEntry(r), exec);
        var a := ResetState(reg);
        assert a[id := a[id]] == a;
      }
    }
  }

  lemma {:induction false} PassEmpty(reg: RuleSet, n: nat, exec: Matcher)
    requires Sound(exec) && Checkable(reg) && KeysListed(reg) && n <= |reg.ids| && AllConsume(reg)
    ensures Pass(reg, ResetState(reg), "", n, exec) == (ResetState(reg), "")
  {
    if n > 0 {
      PassEmpty(reg, n - 1, exec);
      var id := reg.ids[n - 1];
      var r := reg.params[id];
      if !r.stopParse {
        NothingMatchesEmpty(r, 0, ResetEntry(r), exec);
        var a := ResetState(reg);
        assert a[id := a[id]] == a;
      }
    }
  }

  /** `parse([])`: every rule keeps its reset answer, nothing remains and
      the returned text is empty. */
  lemma ParseNothing(reg: RuleSet, opts: Options, exec: Matcher)
    requires Parsable(reg) && Sound(exec) && AllConsume(reg)
    ensures ParseSpec(reg, opts, exec, []) == ParseResult(ResetState(reg), "", "")
  {
    ValidListed(reg);
    StopScanEmpty(reg, opts.exitOnStop, |reg.ids|, exec);
    PassEmpty(reg, |reg.ids|, exec);
    assert Trim("", opts.separator) == "";
  }

  // ---------------------------------------------------------------------
  // The stop-rule scan

  /** What checking the stop rule `id` against the whole text gives, from
      its reset answer. */
  function StopHit(reg: RuleSet, args: string, id: string, exec: Matcher): (sc: Scan)
    requires Sound(exec) && Checkable(reg) && id in reg.params
    ensures sc.matched ==> sc.entry.result.Some?
  {
    CheckArgSpec(reg.params[id], args, |args|, ResetEntry(reg.params[id]), exec)
  }

  /** The check `sc` of a rule matched, before `limit`, and the rule is a
      stop rule. */
  predicate Hit(sc: Scan, stop: bool, limit: nat) {
    stop && sc.matched && sc.entry.result.Some? && sc.entry.result.value.index < limit
  }

  /** `hs` holds every rule's own check against the whole text, in key
      order. */
  ghost predicate ChecksOf(reg: RuleSet, args: string, exec: Matcher, hs: seq<Scan>)
    requires Sound(exec) && Checkable(reg) && KeysListed(reg)
  {
    && |hs| == |reg.ids|
    && forall i {:trigger StopHit(reg, args, reg.ids[i], exec)} :: 0 <= i < |hs| ==>
         hs[i] == StopHit(reg, args, reg.ids[i], exec)
  }

  /** One step of the scan changes only the checked rule's answer, unless
      `exitOnStop` resets them all. */
  lemma StopStepAnswers(reg: RuleSet, exitOnStop: bool, args: string, prev: StopState, id: string,
                        exec: Matcher, y: string)
    requires Sound(exec) && Checkable(reg) && id in reg.params && prev.askfor.Keys == reg.params.Keys
    requires y in reg.params
    ensures var st := StopStep(reg, exitOnStop, args, prev, id, exec);
            y in st.askfor &&
            (y != id ==> st.askfor[y] == prev.askfor[y] || (exitOnStop && st.askfor == ResetState(reg)))
    ensures var st := StopStep(reg, exitOnStop, args, prev, id, exec);
            !exitOnStop && reg.params[id].stopParse ==>
              st.askfor[id] == CheckArgSpec(reg.params[id], args, |args|, prev.askfor[id], exec).entry
    ensures !reg.params[id].stopParse ==> StopStep(reg, exitOnStop, args, prev, id, exec) == prev
  {
  }

  /** The rules the scan has not reached yet still hold their reset answer. */
  lemma {:induction false} StopScanFresh(reg: RuleSet, exitOnStop: bool, args: string, n: nat, exec: Matcher)
    requires Sound(exec) && Checkable(reg) && KeysListed(reg) && n <= |reg.ids| && Distinct(reg.ids)
    ensures forall i :: n <= i < |reg.ids| ==>
              StopScan(reg, exitOnStop, args, n, exec).askfor[reg.ids[i]] == ResetEntry(reg.params[reg.ids[i]])
  {
    if n > 0 {
      StopScanFresh(reg, exitOnStop, args, n - 1, exec);
      var prev := StopScan(reg, exitOnStop, args, n - 1, exec);
      forall i | n <= i < |reg.ids|
        ensures StopScan(reg, exitOnStop, args, n, exec).askfor[reg.ids[i]] == ResetEntry(reg.params[reg.ids[i]])
      {
        assert reg.ids[i] != reg.ids[n - 1];
        StopStepAnswers(reg, exitOnStop, args, prev, reg.ids[n - 1], exec, reg.ids[i]);
      }
    }
  }

  /** One step of the scan, from a rule still holding its reset answer,
      in terms of that rule's own check. */
  lemma StopStepFacts(reg: RuleSet, exitOnStop: bool, args: string, prev: StopState, id: string, exec: Matcher)
    requires Sound(exec) && Checkable(reg) && id in reg.params && id in prev.askfor
    requires prev.askfor[id] == ResetEntry(reg.params[id])
    ensures var st := StopStep(reg, exitOnStop, args, prev, id, exec);
            var sc := StopHit(reg, args, id, exec);
            if Hit(sc, reg.params[id].stopParse, prev.min) then
              && st.min == sc.entry.result.value.index && st.len == |sc.entry.result.value.found|
              && (exitOnStop ==> id in st.last && st.last[id] == sc.entry)
            else
              st.min == prev.min && st.len == prev.len && st.last == prev.last
  {
  }

  /** Rule `i` is the one whose match the scan recorded as starting at
      `min`, with `found` of length `len` and the saved answers `last`:
      a stop rule matching there, and the first in key order to do so. */
  predicate Winner(reg: RuleSet, exitOnStop: bool, args: string, hs: seq<Scan>,
                   min: nat, len: nat, last: Answers, i: nat)
    requires KeysListed(reg) && |hs| == |reg.ids| && i < |reg.ids|
  {
    var id := reg.ids[i];
    && Hit(hs[i], reg.params[id].stopParse, |args|)
    && hs[i].entry.result.value.index == min && len == |hs[i].entry.result.value.found|
    && (forall j :: 0 <= j < i && Hit(hs[j], reg.params[reg.ids[j]].stopParse, |args|) ==>
          hs[j].entry.result.value.index > min)
    && (exitOnStop ==> id in last && last[id] == hs[i].entry)
  }

  /** Among the first `n` rules, the leftmost stop match starts at `min`
      (at most every stop rule's match index), and when one matched there
      the winner is the first rule in key order to do so. */
  predicate Leftmost(reg: RuleSet, exitOnStop: bool, args: string, hs: seq<Scan>, n: nat,
                     min: nat, len: nat, last: Answers)
    requires KeysListed(reg) && |hs| == |reg.ids| && n <= |reg.ids|
  {
    && (forall i :: 0 <= i < n && Hit(hs[i], reg.params[reg.ids[i]].stopParse, |args|) ==>
          min <= hs[i].entry.result.value.index)
    && (min < |args| ==> exists i :: 0 <= i < n && Winner(reg, exitOnStop, args, hs, min, len, last, i))
  }

  /** The scan's step keeps `Leftmost`, given what that step does with the
      check `hs[n - 1]`. */
  lemma LeftmostStep(reg: RuleSet, exitOnStop: bool, args: string, hs: seq<Scan>, n: nat,
                     pmin: nat, plen: nat, plast: Answers, min: nat, len: nat, last: Answers)
    requires KeysListed(reg) && |hs| == |reg.ids| && 0 < n <= |reg.ids| && pmin <= |args|
    requires Leftmost(reg, exitOnStop, args, hs, n - 1, pmin, plen, plast)
    requires var h := hs[n - 1];
             if Hit(h, reg.params[reg.ids[n - 1]].stopParse, pmin) then
               && min == h.entry.result.value.index && len == |h.entry.result.value.found|
               && (exitOnStop ==> reg.ids[n - 1] in last && last[reg.ids[n - 1]] == h.entry)
             else
               min == pmin && len == plen && last == plast
    ensures Leftmost(reg, exitOnStop, args, hs, n, min, len, last)
  {
    if Hit(hs[n - 1], reg.params[reg.ids[n - 1]].stopParse, pmin) {
      assert Winner(reg, exitOnStop, args, hs, min, len, last, n - 1);
    } else if min < |args| {
      var i :| 0 <= i < n - 1 && Winner(reg, exitOnStop, args, hs, pmin, plen, plast, i);
      assert Winner(reg, exitOnStop, args, hs, min, len, last, i);
    }
  }

  /** The leftmost stop match wins: the scan's index is at most every
      stop rule's match index, and when one matched it is that of the
      first rule, in key order, matching there; the length and, under
      `exitOnStop`, the saved answer are that rule's. */
  lemma {:induction false} StopScanLeftmost(reg: RuleSet, exitOnStop: bool, args: string, n: nat,
                                            exec: Matcher, hs: seq<Scan>)
    requires Sound(exec) && Checkable(reg) && KeysListed(reg) && n <= |reg.ids| && Distinct(reg.ids)
    requires ChecksOf(reg, args, exec, hs)
    ensures var st := StopScan(reg, exitOnStop, args, n, exec);
            Leftmost(reg, exitOnStop, args, hs, n, st.min, st.len, st.last)
  {
    if n > 0 {
      StopScanLeftmost(reg, exitOnStop, args, n - 1, exec, hs);
      StopScanFresh(reg, exitOnStop, args, n - 1, exec);
      var prev := StopScan(reg, exitOnStop, args, n - 1, exec);
      var id := reg.ids[n - 1];
      StopStepFacts(reg, exitOnStop, args, prev, id, exec);
      assert hs[n - 1] == StopHit(reg, args, id, exec);
      var st := StopStep(reg, exitOnStop, args, prev, id, exec);
      LeftmostStep(reg, exitOnStop, args, hs, n, prev.min, prev.len, prev.last, st.min, st.len, st.last);
    }
  }

  /** Without `exitOnStop` the scan keeps every stop rule's answer from
      its check and leaves the other rules at their reset answer. */
  lemma {:induction false} StopScanAnswers(reg: RuleSet, args: string, n: nat, exec: Matcher)
    requires Sound(exec) && Checkable(reg) && KeysListed(reg) && n <= |reg.ids| && Distinct(reg.ids)
    ensures forall i :: 0 <= i < n ==>
              StopScan(reg, false, args, n, exec).askfor[reg.ids[i]] ==
                (if reg.params[reg.ids[i]].stopParse then StopHit(reg, args, reg.ids[i], exec).entry
                 else ResetEntry(reg.params[reg.ids[i]]))
  {
    if n > 0 {
      StopScanAnswers(reg, args, n - 1, exec);
      StopScanFresh(reg, false, args, n - 1, exec);
      var prev := StopScan(reg, false, args, n - 1, exec);
      var id := reg.ids[n - 1];
      forall i | 0 <= i < n
        ensures StopScan(reg, false, args, n, exec).askfor[reg.ids[i]] ==
                (if reg.params[reg.ids[i]].stopParse then StopHit(reg, args, reg.ids[i], exec).entry
                 else ResetEntry(reg.params[reg.ids[i]]))
      {
        StopStepAnswers(reg, false, args, prev, id, exec, reg.ids[i]);
        if i < n - 1 {
          assert reg.ids[i] != id;
        }
      }
    }
  }

  /** Every rule other than a stop rule holds its reset answer. */
  ghost predicate OthersReset(reg: RuleSet, a: Answers) {
    && a.Keys == reg.params.Keys
    && forall id :: id in reg.params && !reg.params[id].stopParse ==> a[id] == ResetEntry(reg.params[id])
  }

  /** The scan checks only stop rules, so every other rule keeps its reset
      answer, and so does the snapshot `exitOnStop` takes once a stop rule
      has matched. */
  lemma {:induction false} StopScanOthersReset(reg: RuleSet, exitOnStop: bool, args: string, n: nat, exec: Matcher)
    requires Sound(exec) && Checkable(reg) && KeysListed(reg) && n <= |reg.ids|
    ensures var st := StopScan(reg, exitOnStop, args, n, exec);
            OthersReset(reg, st.askfor) && (exitOnStop && st.min < |args| ==> OthersReset(reg, st.last))
  {
    if n > 0 {
      StopScanOthersReset(reg, exitOnStop, args, n - 1, exec);
      OthersResetStep(reg, exitOnStop, args, StopScan(reg, exitOnStop, args, n - 1, exec), reg.ids[n - 1], exec);
    }
  }

  /** One turn of the scan keeps `OthersReset` for the answers and, once
      a stop rule matched under `exitOnStop`, for the snapshot. */
  lemma OthersResetStep(reg: RuleSet, exitOnStop: bool, args: string, prev: StopState, id: string, exec: Matcher)
    requires Sound(exec) && Checkable(reg) && id in reg.params
    requires OthersReset(reg, prev.askfor)
    requires exitOnStop && prev.min < |args| ==> OthersReset(reg, prev.last)
    ensures var st := StopStep(reg, exitOnStop, args, prev, id, exec);
            OthersReset(reg, st.askfor) && (exitOnStop && st.min < |args| ==> OthersReset(reg, st.last))
  {
    if reg.params[id].stopParse {
      var sc := CheckArgSpec(reg.params[id], args, |args|, prev.askfor[id], exec);
      var a := prev.askfor[id := sc.entry];
      assert OthersReset(reg, a);
    }
  }

  /** Under `exitOnStop`, once a stop rule matched, `parse` returns the
      text before the match, leaves what follows it in `remain`, and keeps
      the snapshot, in which every rule other than a stop rule holds its
      reset answer. */
  lemma ParseExitSnapshot(reg: RuleSet, opts: Options, exec: Matcher, tokens: seq<string>)
    requires Parsable(reg) && Sound(exec) && opts.exitOnStop
    ensures KeysListed(reg)
    ensures var args := Join(tokens, opts.separator);
            var st := StopScan(reg, true, args, |reg.ids|, exec);
            st.min < |args| ==>
              && ParseSpec(reg, opts, exec, tokens) == ParseResult(st.last, SliceFrom(args, st.min + st.len), args[..st.min])
              && OthersReset(reg, st.last)
  {
    ValidListed(reg);
    var args := Join(tokens, opts.separator);
    var st := StopScan(reg, true, args, |reg.ids|, exec);
    StopScanOthersReset(reg, true, args, |reg.ids|, exec);
    if st.min < |args| {
      assert ParseSpec(reg, opts, exec, tokens) == Finish(reg, opts, exec, args, st);
    }
  }

  /** Without `exitOnStop`, `Finish` cuts at a stop match: what follows
      the match is `remain`, and the passes run over what precedes it;
      without a stop match they run over the whole text. */
  lemma FinishDefault(reg: RuleSet, opts: Options, exec: Matcher, args: string, st: StopState)
    requires Sound(exec) && Checkable(reg) && KeysListed(reg) && !opts.exitOnStop
    requires st.askfor.Keys == reg.params.Keys && st.min <= |args|
    ensures var c := Converge(reg, st.askfor, args[..st.min], exec, opts.separator);
            st.min < |args| ==> Finish(reg, opts, exec, args, st) == ParseResult(c.0, SliceFrom(args, st.min + st.len), c.1)
    ensures var c := Converge(reg, st.askfor, args, exec, opts.separator);
            st.min == |args| ==> Finish(reg, opts, exec, args, st) == ParseResult(c.0, "", c.1)
  {
  }

  /** `parse` with `exitOnStop` off (the default), for the stop-rule scan
      `st` of the joined tokens `args`. With a stop match, `remain` is the
      text after the leftmost one and the passes run over the text before
      it; without one, `remain` is empty and the passes run over the whole
      text. They start from the answers the scan left, in which every
      other rule holds its reset answer, and each stop rule `id` keeps its
      own check of the whole text through the passes. */
  lemma ParseStopCut(reg: RuleSet, opts: Options, exec: Matcher, tokens: seq<string>,
                     args: string, st: StopState, id: string)
    requires Parsable(reg) && KeysListed(reg) && Sound(exec) && !opts.exitOnStop
    requires args == Join(tokens, opts.separator) && st == StopScan(reg, false, args, |reg.ids|, exec)
    ensures var c := Converge(reg, st.askfor, args[..st.min], exec, opts.separator);
            st.min < |args| ==> ParseSpec(reg, opts, exec, tokens) == ParseResult(c.0, SliceFrom(args, st.min + st.len), c.1)
    ensures var c := Converge(reg, st.askfor, args, exec, opts.separator);
            st.min == |args| ==> ParseSpec(reg, opts, exec, tokens) == ParseResult(c.0, "", c.1)
    ensures OthersReset(reg, st.askfor)
    ensures id in reg.params && reg.params[id].stopParse ==>
              Converge(reg, st.askfor, args[..st.min], exec, opts.separator).0[id] == StopHit(reg, args, id, exec).entry
  {
    assert ParseSpec(reg, opts, exec, tokens) == Finish(reg, opts, exec, args, st);
    FinishDefault(reg, opts, exec, args, st);
    StopScanOthersReset(reg, false, args, |reg.ids|, exec);
    if id in reg.params && reg.params[id].stopParse {
      CutKeepsStopAnswer(reg, args, exec, opts.separator, id);
    }
  }

  /** A stop rule's own check survives the passes over the text before
      the cut. */
  lemma CutKeepsStopAnswer(reg: RuleSet, args: string, exec: Matcher, sep: char, id: string)
    requires Sound(exec) && Checkable(reg) && KeysListed(reg) && Distinct(reg.ids)
    requires id in reg.ids && id in reg.params && reg.params[id].stopParse
    ensures var st := StopScan(reg, false, args, |reg.ids|, exec);
            Converge(reg, st.askfor, args[..st.min], exec, sep).0[id] == StopHit(reg, args, id, exec).entry
  {
    var st := StopScan(reg, false, args, |reg.ids|, exec);
    StopScanAnswers(reg, args, |reg.ids|, exec);
    var i :| 0 <= i < |reg.ids| && reg.ids[i] == id;
    assert st.askfor[id] == StopHit(reg, args, id, exec).entry;
    ConvergeKeepsStops(reg, st.askfor, args[..st.min], exec, sep, id);
  }

  ghost predicate NoStopRules(reg: RuleSet) {
    forall id :: id in reg.params ==> !reg.params[id].stopParse
  }

  lemma {:induction false} StopScanNoStops(reg: RuleSet, exitOnStop: bool, args: string, n: nat, exec: Matcher)
    requires Sound(exec) && Checkable(reg) && KeysListed(reg) && n <= |reg.ids| && NoStopRules(reg)
    ensures StopScan(reg, exitOnStop, args, n, exec) == StopState(ResetState(reg), |args|, 0, map[])
  {
    if n > 0 {
      StopScanNoStops(reg, exitOnStop, args, n - 1, exec);
    }
  }

  /** Without stop rules nothing remains and the passes run over the whole
      joined text from the reset answers. */
  lemma ParseWithoutStops(reg: RuleSet, opts: Options, exec: Matcher, tokens: seq<string>)
    requires Parsable(reg) && Sound(exec) && NoStopRules(reg)
    ensures KeysListed(reg)
    ensures var args := Join(tokens, opts.separator);
            var c := Converge(reg, ResetState(reg), args, exec, opts.separator);
            ParseSpec(reg, opts, exec, tokens) == ParseResult(c.0, "", c.1)
  {
    ValidListed(reg);
    StopScanNoStops(reg, opts.exitOnStop, Join(tokens, opts.separator), |reg.ids|, exec);
  }

  // ---------------------------------------------------------------------
  // The passes

  /** So the stop rules keep what the stop-rule scan gave them. */
  lemma {:induction false} ConvergeKeepsStops(reg: RuleSet, a: Answers, s: string, exec: Matcher, sep: char, id: string)
    requires Sound(exec) && Checkable(reg) && KeysListed(reg) && a.Keys == reg.params.Keys
    requires id in reg.params && reg.params[id].stopParse
    ensures Converge(reg, a, s, exec, sep).0[id] == a[id]
    decreases |s|
  {
    var p := Pass(reg, a, s, |reg.ids|, exec);
    var t := Trim(p.1, sep);
    if t != s {
      ConvergeKeepsStops(reg, p.0, t, exec, sep, id);
    }
  }

  /** The pass `Converge` ends on: from the answers `b`, one pass over `s`
      gives the answers `a` and, once trimmed, `s` itself again. */
  ghost predicate FinalPass(reg: RuleSet, b: Answers, s: string, a: Answers, exec: Matcher, sep: char)
    requires Sound(exec) && Checkable(reg) && KeysListed(reg)
  {
    && b.Keys == reg.params.Keys
    && var p := Pass(reg, b, s, |reg.ids|, exec);
       p.0 == a && Trim(p.1, sep) == s
  }

  /** `Converge` stops only when a pass leaves the text as it was: the
      text it returns, with the answers it returns, comes out of one more
      pass from the answers the last pass started with. */
  lemma {:induction false} ConvergeStable(reg: RuleSet, a: Answers, s: string, exec: Matcher, sep: char)
    returns (b: Answers)
    requires Sound(exec) && Checkable(reg) && KeysListed(reg) && a.Keys == reg.params.Keys
    ensures var res := Converge(reg, a, s, exec, sep);
            FinalPass(reg, b, res.1, res.0, exec, sep)
    decreases |s|
  {
    var p := Pass(reg, a, s, |reg.ids|, exec);
    var t := Trim(p.1, sep);
    if t != s {
      b := ConvergeStable(reg, p.0, t, exec, sep);
    } else {
      b := a;
    }
  }

  /** A match is only accepted at or before `allow`, so a record never
      starts past it; in a pass (`allow` 0) every record starts at 0. */
  lemma {:induction false} RunFormWithin(r: Rule, cur: Pattern, onCm: bool, arg: string, allow: nat, e: Entry,
                                         first: bool, matched: bool, exec: Matcher)
    requires Sound(exec) && Terminates(r) && (onCm ==> r.cm == Some(cur))
    requires e.result.Some? ==> e.result.value.index <= allow
    ensures var res := RunForm(r, cur, onCm, arg, allow, e, first, matched, exec);
            res.entry.result.Some? ==> res.entry.result.value.index <= allow
    decreases |arg|, if onCm then 0 else 1
  {
    var hit := exec(cur, arg);
    if hit.Some? && hit.value.index <= allow {
      var m := hit.value;
      var (e2, first2) := Accept(r, e, m, first);
      if r.cm.Some? {
        RunFormAcceptsCm(r, cur, onCm, arg, allow, e, first, matched, exec, m, e2, first2);
        if onCm {
          CmMatchShrinks(r, cur, arg, exec);
        }
        RunFormWithin(r, r.cm.value, true, arg[m.index + |m.text|..], allow, e2, first2, true, exec);
      }
    }
  }

  lemma CheckArgWithin(r: Rule, arg: string, allow: nat, e: Entry, exec: Matcher)
    requires Sound(exec) && Terminates(r)
    requires e.result.Some? ==> e.result.value.index <= allow
    ensures var res := CheckArgSpec(r, arg, allow, e, exec);
            res.entry.result.Some? ==> res.entry.result.value.index <= allow
  {
    var sc0 := Scan(arg, e, false);
    if r.short.Some? {
      RunFormWithin(r, r.short.value, false, arg, allow, e, true, false, exec);
    }
    var sc1 := FormSpec(r, r.short, sc0, allow, exec);
    if r.long.Some? {
      RunFormWithin(r, r.long.value, false, sc1.arg, allow, sc1.entry, true, sc1.matched, exec);
    }
  }

  // ---------------------------------------------------------------------
  // Storing an accepted match

  /** The first captured match of a call to a single-valued rule replaces
      the earlier values: only this match's names remain. */
  lemma AcceptClears(r: Rule, e: Entry, m: Match, first: bool)
    requires |m.caps| > 0 && first && !r.multiple
    ensures Accept(r, e, m, first).0.values.m.Keys == set c | c in m.caps :: c.name
  {
    StoreKeys(map[], m.caps, r.values, r.multiple || r.cm.Some?);
  }

  /** Any later captured match, or any match of a `multiple` rule, keeps
      the earlier names and adds this match's. */
  lemma AcceptKeeps(r: Rule, e: Entry, m: Match, first: bool)
    requires |m.caps| > 0 && (!first || r.multiple) && e.values.Caps?
    ensures Accept(r, e, m, first).0.values.m.Keys == e.values.m.Keys + set c | c in m.caps :: c.name
  {
    StoreKeys(e.values.m, m.caps, r.values, r.multiple || r.cm.Some?);
  }

  /** Accumulation order across matches: in append mode (`multiple` or a
      capture-multiple expression) each key of the new object is a list
      holding what it held before this match, followed by this match's
      substituted values for it, in capture order. */
  lemma AcceptAppends(r: Rule, e: Entry, m: Match, first: bool, k: string)
    requires |m.caps| > 0 && (r.multiple || r.cm.Some?)
    requires e.values.Caps? ==> AllMany(e.values.m)
    ensures var v := Accept(r, e, m, first).0.values;
            && v.Caps? && AllMany(v.m)
            && (k in v.m ==> v.m[k] == Many(Listed(AcceptBase(r, e, first), k) + ValuesFor(m.caps, k, r.values)))
  {
    StoreAppends(AcceptBase(r, e, first), m.caps, r.values, k);
  }

  /** In overwrite mode each captured key holds the substituted value of
      its last capture in this match; any other key holds what the base
      held, so the first captured match of a call drops the others. */
  lemma AcceptOverwrites(r: Rule, e: Entry, m: Match, first: bool, k: string)
    requires |m.caps| > 0 && !r.multiple && r.cm.None?
    ensures var v := Accept(r, e, m, first).0.values;
            var last := LastFor(m.caps, k, r.values);
            var base := AcceptBase(r, e, first);
            && v.Caps?
            && (last.Some? ==> k in v.m && v.m[k] == One(last.value))
            && (last.None? ==> (k in v.m <==> k in base) && (k in base ==> v.m[k] == base[k]))
  {
    var base := AcceptBase(r, e, first);
    StoreOverwrites(base, m.caps, r.values, k);
    StoreKeys(base, m.caps, r.values, false);
    if LastFor(m.caps, k, r.values).None? && k !in base {
      assert k !in set c | c in m.caps :: c.name;
    }
  }
}

=== FILE: patterns.dfy ===
/** The patterns rules are written in. A JavaScript RegExp is replaced by a
    flat sequence of atoms matched greedily, left to right, without
    backtracking; `Exec` then plays the part of `RegExp.prototype.exec`
    for a non-global expression: it searches from index 0 and returns the
    leftmost match with its named captures. The separator character given
    to the matcher stands for `\s`. */
module Patterns {
  import opened Common

  /** `[\w...]`, `[^...]` or an explicit set of characters. */
  datatype CharClass = WordPlus(extra: set<char>) | AllBut(excluded: set<char>) | Only(chars: set<char>)

  predicate IsWordChar(c: char) {
    'a' <= c <= 'z' || 'A' <= c <= 'Z' || '0' <= c <= '9' || c == '_'
  }

  predicate InClass(c: char, cls: CharClass) {
    match cls
    case WordPlus(extra) => IsWordChar(c) || c in extra
    case AllBut(excluded) => c !in excluded
    case Only(chars) => c in chars
  }

  datatype Atom =
    | Lit(c: char)                      // one literal character
    | OneOf(cls: CharClass)             // one character of a class, `[=| ]`
    | OptLit(w: string)                 // an optional literal, `(ebug)?`, `[-]?`, `,?`
    | Seps                              // `\s*`
    | SepOrEnd                          // `(\s|$)`
    | Named(name: string, cls: CharClass)   // `(?<name>[cls]+)`
    | OptNamed(pre: string, name: string, cls: CharClass, post: string)
                                        // `(pre(?<name>[cls]+)post)?`

  type Pattern = seq<Atom>

  /** A named capture; `None` is JavaScript's `undefined` for a group that did not take part. */
  datatype Cap = Cap(name: string, text: Option<string>)

  /** What `exec` reports: where the match starts, its text (`m[0]`) and its named groups. */
  datatype Match = Match(index: nat, text: string, caps: seq<Cap>)

  /** The atoms that cannot match the empty string. */
  predicate Consuming(a: Atom) {
    a.Lit? || a.OneOf? || a.Named?
  }

  /** A pattern every match of which is non-empty. */
  predicate Consumes(p: Pattern) {
    exists k :: 0 <= k < |p| && Consuming(p[k])
  }

  function AtomNames(a: Atom): seq<string> {
    match a
    case Named(n, _) => [n]
    case OptNamed(_, n, _, _) => [n]
    case _ => []
  }

  /** The names of the pattern's groups, in order of appearance. */
  function Names(p: Pattern): seq<string> {
    if |p| == 0 then [] else AtomNames(p[0]) + Names(p[1..])
  }

  function CapNames(caps: seq<Cap>): seq<string> {
    seq(|caps|, k requires 0 <= k < |caps| => caps[k].name)
  }

  lemma CapNamesAppend(a: seq<Cap>, b: seq<Cap>)
    ensures CapNames(a + b) == CapNames(a) + CapNames(b)
  {
  }

  predicate HasAt(s: string, i: nat, w: string) {
    i + |w| <= |s| && s[i..i + |w|] == w
  }

  /** The word `w` occurs nowhere in `s`. */
  ghost predicate WordAbsent(s: string, w: string) {
    forall k: nat :: !HasAt(s, k, w)
  }

  /** End of the longest run of class characters starting at `i`. */
  function RunEnd(s: string, i: nat, cls: CharClass): (j: nat)
    requires i <= |s|
    ensures i <= j <= |s|
    ensures forall k :: i <= k < j ==> InClass(s[k], cls)
    ensures j < |s| ==> !InClass(s[j], cls)
    decreases |s| - i
  {
    if i < |s| && InClass(s[i], cls) then RunEnd(s, i + 1, cls) else i
  }

  /** Where a successful atom or pattern match ends, and what it captured. */
  datatype Step = Step(end: nat, caps: seq<Cap>)

  function MatchAtom(a: Atom, s: string, i: nat, sep: char): (r: Option<Step>)
    requires i <= |s|
    ensures r.Some? ==> CapNames(r.value.caps) == AtomNames(a)
    ensures r.Some? ==> i <= r.value.end <= |s|
    ensures r.Some? && Consuming(a) ==> r.value.end > i
  {
    match a
    case Lit(c) => if i < |s| && s[i] == c then Some(Step(i + 1, [])) else None
    case OneOf(cls) => if i < |s| && InClass(s[i], cls) then Some(Step(i + 1, [])) else None
    case OptLit(w) => if HasAt(s, i, w) then Some(Step(i + |w|, [])) else Some(Step(i, []))
    case Seps => Some(Step(RunEnd(s, i, Only({sep})), []))
    case SepOrEnd =>
      if i == |s| then Some(Step(i, []))
      else if s[i] == sep then Some(Step(i + 1, []))
      else None
    case Named(n, cls) =>
      var j := RunEnd(s, i, cls);
      if j > i then Some(Step(j, [Cap(n, Some(s[i..j]))])) else None
    case OptNamed(pre, n, cls, post) =>
      if HasAt(s, i, pre) then
        var j := RunEnd(s, i + |pre|, cls);
        if j > i + |pre| && HasAt(s, j, post) then Some(Step(j + |post|, [Cap(n, Some(s[i + |pre|..j]))]))
        else Some(Step(i, [Cap(n, None)]))
      else Some(Step(i, [Cap(n, None)]))
  }

  /** Matching a whole pattern at position `i`: the end stays in the
      text, every group of the pattern is reported (in order), and a
      consuming pattern never matches the empty string. */
  function MatchSeq(p: Pattern, s: string, i: nat, sep: char): (r: Option<Step>)
    requires i <= |s|
    ensures r.Some? ==> i <= r.value.end <= |s|
    ensures r.Some? && Consumes(p) ==> r.value.end > i
    decreases |p|
  {
    if |p| == 0 then Some(Step(i, []))
    else
      match MatchAtom(p[0], s, i, sep)
      case None => None
      case Some(first) =>
        match MatchSeq(p[1..], s, first.end, sep)
        case None => None
        case Some(rest) =>
          assert Consumes(p) && !Consuming(p[0]) ==> Consumes(p[1..]) by {
            if Consumes(p) && !Consuming(p[0]) {
              var k :| 0 <= k < |p| && Consuming(p[k]);
              assert p[1..][k - 1] == p[k];
            }
          }
          Some(Step(rest.end, first.caps + rest.caps))
  }

  /** JavaScript lists every named group of the expression in `groups`,
      in order, with `undefined` for those that took no part in the match. */
  lemma {:induction false} MatchSeqNames(p: Pattern, s: string, i: nat, sep: char)
    requires i <= |s|
    requires MatchSeq(p, s, i, sep).Some?
    ensures CapNames(MatchSeq(p, s, i, sep).value.caps) == Names(p)
    decreases |p|
  {
    if |p| > 0 {
      var first := MatchAtom(p[0], s, i, sep).value;
      assert CapNames(first.caps) == AtomNames(p[0]);
      var rest := MatchSeq(p[1..], s, first.end, sep).value;
      MatchSeqNames(p[1..], s, first.end, sep);
      CapNamesAppend(first.caps, rest.caps);
    }
  }

  /** Matching `p + q` is matching `p`, then `q` where `p` stopped. */
  lemma {:induction false} MatchSeqAppend(p: Pattern, q: Pattern, s: string, i: nat, sep: char)
    requires i <= |s|
    ensures MatchSeq(p + q, s, i, sep) ==
      match MatchSeq(p, s, i, sep)
      case None => None
      case Some(a) =>
        match MatchSeq(q, s, a.end, sep)
        case None => None
        case Some(b) => Some(Step(b.end, a.caps + b.caps))
    decreases |p|
  {
    if |p| == 0 {
      assert p + q == q;
      match MatchSeq(q, s, i, sep)
      case None =>
      case Some(b) => assert [] + b.caps == b.caps;
    } else {
      assert (p + q)[0] == p[0];
      assert (p + q)[1..] == p[1..] + q;
      match MatchAtom(p[0], s, i, sep)
      case None =>
      case Some(first) =>
        MatchSeqAppend(p[1..], q, s, first.end, sep);
        match MatchSeq(p[1..], s, first.end, sep)
        case None =>
        case Some(a) =>
          match MatchSeq(q, s, a.end, sep)
          case None =>
          case Some(b) =>
            assert first.caps + (a.caps + b.caps) == (first.caps + a.caps) + b.caps;
    }
  }

  /** `p` matches the text at position `k`. */
  predicate MatchesAt(p: Pattern, s: string, k: nat, sep: char) {
    k <= |s| && MatchSeq(p, s, k, sep).Some?
  }

  /** `p` matches at no index in `from..to`. */
  predicate NoMatchIn(p: Pattern, s: string, from: nat, to: nat, sep: char) {
    forall k: nat :: from <= k < to ==> !MatchesAt(p, s, k, sep)
  }

  /** `m` is a match of `p` in `s`: its text is the part of `s` that `p`
      spans from `m.index`, and its captures are the ones `p` makes there. */
  predicate Found(p: Pattern, s: string, m: Match, sep: char) {
    && m.index + |m.text| <= |s|
    && s[m.index..m.index + |m.text|] == m.text
    && MatchSeq(p, s, m.index, sep) == Some(Step(m.index + |m.text|, m.caps))
  }

  /** The leftmost match of `p` starting at or after `from`. */
  function ExecFrom(p: Pattern, s: string, from: nat, sep: char): (r: Option<Match>)
    requires from <= |s|
    ensures r.Some? ==> from <= r.value.index && Found(p, s, r.value, sep)
    decreases |s| - from
  {
    var here := MatchSeq(p, s, from, sep);
    if here.Some? then
      Some(Match(from, s[from..here.value.end], here.value.caps))
    else if from == |s| then None
    else
      ExecFrom(p, s, from + 1, sep)
  }

  /** The match `ExecFrom` finds is the leftmost one, and when it finds
      none the pattern matches nowhere from `from` on. */
  lemma {:induction false} ExecFromLeftmost(p: Pattern, s: string, from: nat, sep: char)
    requires from <= |s|
    ensures var r := ExecFrom(p, s, from, sep);
            && (r.Some? ==> NoMatchIn(p, s, from, r.value.index, sep))
            && (r.None? ==> NoMatchIn(p, s, from, |s| + 1, sep))
    decreases |s| - from
  {
    if MatchSeq(p, s, from, sep).None? && from < |s| {
      ExecFromLeftmost(p, s, from + 1, sep);
      assert !MatchesAt(p, s, from, sep);
    }
  }

  /** `re.exec(s)`: search from index 0 for the leftmost match. */
  function Exec(p: Pattern, s: string, sep: char): (r: Option<Match>)
    ensures r.Some? ==> r.value.index + |r.value.text| <= |s|
    ensures r.Some? ==> s[r.value.index..r.value.index + |r.value.text|] == r.value.text
    ensures r.Some? && Consumes(p) ==> |r.value.text| > 0
    ensures r.Some? ==> forall k :: 0 <= k < r.value.index ==> !MatchesAt(p, s, k, sep)
    ensures r.None? ==> forall k :: !MatchesAt(p, s, k, sep)
  {
    var r := ExecFrom(p, s, 0, sep);
    ExecFromLeftmost(p, s, 0, sep);
    assert r.None? ==> forall k :: !MatchesAt(p, s, k, sep) by {
      if r.None? {
        forall k: nat ensures !MatchesAt(p, s, k, sep) {
          if k <= |s| {
            assert 0 <= k < |s| + 1;
          }
        }
      }
    }
    r
  }

  /** A regular-expression engine as the rules use it: `exec(p, s)` is
      the leftmost match of `p` in `s`, if any. The engine of this module
      is one such; the parsing engine only relies on `Sound`. */
  type Matcher = (Pattern, string) -> Option<Match>

  /** A match lies inside the text, and a pattern that cannot match the
      empty string never yields an empty match. */
  ghost predicate Sound(exec: Matcher) {
    forall p, s :: exec(p, s).Some? ==>
      exec(p, s).value.index + |exec(p, s).value.text| <= |s| &&
      (Consumes(p) ==> |exec(p, s).value.text| > 0)
  }

  /** The greedy engine of this module, with `sep` standing for `\s`. */
  function Greedy(sep: char): Matcher {
    (p, s) => Exec(p, s, sep)
  }

  lemma GreedySound(sep: char)
    ensures Sound(Greedy(sep))
  {
  }

  /** The pattern of a plain literal string. */
  function LitPattern(w: string): (p: Pattern)
    ensures |p| == |w| && forall k :: 0 <= k < |w| ==> p[k] == Lit(w[k])
  {
    if |w| == 0 then [] else [Lit(w[0])] + LitPattern(w[1..])
  }

  /** A string pattern compiled without a capture-multiple pattern:
      `\s*P(\s|$)`, so that it only matches a whole token. */
  function Wrap(p: Pattern): Pattern {
    [Seps] + p + [SepOrEnd]
  }

  lemma {:induction false} MatchLiteral(w: string, s: string, i: nat, sep: char)
    requires HasAt(s, i, w)
    ensures MatchSeq(LitPattern(w), s, i, sep) == Some(Step(i + |w|, []))
    decreases |w|
  {
    if |w| > 0 {
      assert LitPattern(w)[1..] == LitPattern(w[1..]);
      assert s[i] == s[i..i + |w|][0] == w[0];
      assert s[i + 1..i + 1 + |w[1..]|] == s[i..i + |w|][1..];
      MatchLiteral(w[1..], s, i + 1, sep);
      assert MatchAtom(Lit(w[0]), s, i, sep) == Some(Step(i + 1, []));
      var none: seq<Cap> := [];
      assert none + none == none;
    }
  }

  lemma MatchSingle(a: Atom, s: string, i: nat, sep: char)
    requires i <= |s|
    ensures MatchSeq([a], s, i, sep) == MatchAtom(a, s, i, sep)
  {
    assert [a][1..] == [];
    match MatchAtom(a, s, i, sep)
    case None =>
    case Some(st) => assert st.caps + [] == st.caps;
  }

  /** Seps, then the literal `w`, then SepOrEnd, on a text holding `w` at 0. */
  lemma WrappedLiteralAt(w: string, s: string, sep: char)
    requires |w| > 0 && sep !in w && HasAt(s, 0, w)
    ensures MatchSeq(Wrap(LitPattern(w)), s, 0, sep) == MatchSeq([SepOrEnd], s, |w|, sep)
  {
    var p := LitPattern(w);
    assert s[0] == s[0..|w|][0] == w[0];
    assert RunEnd(s, 0, Only({sep})) == 0;
    assert MatchAtom(Seps, s, 0, sep) == Some(Step(0, []));
    assert [Seps][1..] == [];
    assert MatchSeq([Seps][1..], s, 0, sep) == Some(Step(0, []));
    var none: seq<Cap> := [];
    assert none + none == none;
    assert MatchSeq([Seps], s, 0, sep) == Some(Step(0, []));
    MatchLiteral(w, s, 0, sep);
    MatchSeqAppend([Seps], p, s, 0, sep);
    assert MatchSeq([Seps] + p, s, 0, sep) == Some(Step(|w|, []));
    MatchSeqAppend([Seps] + p, [SepOrEnd], s, 0, sep);
    match MatchSeq([SepOrEnd], s, |w|, sep)
    case None =>
    case Some(b) => assert [] + b.caps == b.caps;
  }

  /** A pattern that matches at index 0 is found there. */
  lemma ExecAtZero(p: Pattern, s: string, sep: char, st: Step)
    requires MatchSeq(p, s, 0, sep) == Some(st)
    ensures Exec(p, s, sep) == Some(Match(0, s[..st.end], st.caps))
  {
  }

  /** `(\s|$)` right after the word: a separator is taken, the end of the
      text matches empty. */
  lemma SepOrEndAfter(s: string, i: nat, sep: char)
    requires i <= |s| && (i < |s| ==> s[i] == sep)
    ensures MatchSeq([SepOrEnd], s, i, sep) == Some(Step(if i < |s| then i + 1 else i, []))
  {
    MatchSingle(SepOrEnd, s, i, sep);
  }

  /** A wrapped literal flag at the start of the text, ending there or
      followed by a separator, is found at index 0. */
  lemma WrappedFlagAt(w: string, s: string, sep: char)
    requires |w| > 0 && sep !in w && HasAt(s, 0, w) && (|w| < |s| ==> s[|w|] == sep)
    ensures Exec(Wrap(LitPattern(w)), s, sep) ==
            Some(Match(0, s[..if |w| < |s| then |w| + 1 else |w|], []))
  {
    WrappedLiteralAt(w, s, sep);
    SepOrEndAfter(s, |w|, sep);
    ExecAtZero(Wrap(LitPattern(w)), s, sep, Step(if |w| < |s| then |w| + 1 else |w|, []));
  }

  /** A wrapped literal flag at the very start of the text, followed by a
      separator, is matched together with that separator. */
  lemma FlagMatchesLeadingToken(w: string, rest: string, sep: char)
    requires |w| > 0 && sep !in w
    ensures Exec(Wrap(LitPattern(w)), w + [sep] + rest, sep) == Some(Match(0, w + [sep], []))
  {
    var s := w + [sep] + rest;
    assert HasAt(s, 0, w) by { assert s[0..|w|] == w; }
    assert s[|w|] == sep;
    WrappedFlagAt(w, s, sep);
    assert s[..|w| + 1] == w + [sep];
  }

  /** A wrapped literal flag that is the whole text is matched entirely. */
  lemma FlagMatchesWholeText(w: string, sep: char)
    requires |w| > 0 && sep !in w
    ensures Exec(Wrap(LitPattern(w)), w, sep) == Some(Match(0, w, []))
  {
    assert HasAt(w, 0, w) by { assert w[0..|w|] == w; }
    WrappedFlagAt(w, w, sep);
    assert w[..|w|] == w;
  }

  /** A word occurs at `i` when its first character does and the rest of
      it follows. */
  lemma HasAtCons(s: string, i: nat, w: string)
    requires |w| > 0 && i < |s| && s[i] == w[0] && HasAt(s, i + 1, w[1..])
    ensures HasAt(s, i, w)
  {
    assert s[i..i + |w|] == [s[i]] + s[i + 1..i + |w|];
    assert w == [w[0]] + w[1..];
  }

  /** A word whose first character is not in the text occurs nowhere in
      it. */
  lemma AbsentFirstChar(s: string, w: string)
    requires |w| > 0 && w[0] !in s
    ensures WordAbsent(s, w)
  {
    forall k: nat ensures !HasAt(s, k, w) {
      if k + |w| <= |s| {
        assert s[k..k + |w|][0] == s[k];
      }
    }
  }

  /** The literal pattern only matches where the word occurs. */
  lemma {:induction false} LiteralMatchOccurs(w: string, s: string, i: nat, sep: char)
    requires i <= |s| && MatchSeq(LitPattern(w), s, i, sep).Some?
    ensures HasAt(s, i, w)
    decreases |w|
  {
    if |w| > 0 {
      var p := LitPattern(w);
      assert p[0] == Lit(w[0]) && p[1..] == LitPattern(w[1..]);
      var first := MatchAtom(p[0], s, i, sep);
      assert first.Some? && i < |s| && s[i] == w[0] && first.value.end == i + 1;
      LiteralMatchOccurs(w[1..], s, i + 1, sep);
      HasAtCons(s, i, w);
    }
  }

  /** A wrapped literal flag is never found in a text where the word does
      not occur. */
  lemma AbsentWordNoMatch(w: string, t: string, sep: char)
    requires WordAbsent(t, w)
    ensures Exec(Wrap(LitPattern(w)), t, sep).None?
  {
    var p := LitPattern(w);
    var r := ExecFrom(Wrap(p), t, 0, sep);
    if r.Some? {
      var k := r.value.index;
      MatchSeqAppend([Seps] + p, [SepOrEnd], t, k, sep);
      MatchSeqAppend([Seps], p, t, k, sep);
      var a := MatchSeq([Seps], t, k, sep).value;
      LiteralMatchOccurs(w, t, a.end, sep);
      assert false;
    }
  }
}

=== FILE: registry.dfy ===
/** The rule registry: how `set` normalises one rule definition and files
    its display entry in a group, and how `setup` registers a list of
    definitions, stopping at the first malformed one. */
module Registry {
  import opened Common
  import opened Patterns

  /** How a definition gives its `short` or `long` form. */
  datatype FormDef =
    | Absent                                // the property is not set
    | Text(src: string, pat: Pattern)       // a string: `src` as written, `pat` the expression it denotes
    | Compiled(src: string, pat: Pattern)   // a RegExp: `src` is its `toString()`, slashes included
    | OtherType(typeName: string)           // any other type, which is refused

  /** The `captureMultiple` property. A string is turned into an expression,
      an expression is kept, and any other value only counts through its
      truthiness. */
  datatype CmDef = NoCm | CmText(pat: Pattern) | CmCompiled(pat: Pattern) | CmOther(truthy: bool)

  /** The `values` property: a boolean flag default, or default texts per capture name. */
  datatype Defaults = FlagDefault(b: bool) | KeyedDefault(m: map<string, string>)

  /** A rule definition as a caller writes it. `group: None` stands for a
      missing or non-string group, `false` for a missing `multiple` or
      `stopParse`, `FlagDefault(false)` for missing `values`. */
  datatype RuleDef = RuleDef(
    short: FormDef, long: FormDef, captureMultiple: CmDef,
    group: Option<string>, multiple: bool, stopParse: bool, values: Defaults,
    humanReadable: Option<string>, help: Option<string>, hidden: Option<bool>)

  /** A rule after normalisation: compiled forms, the capture-multiple
      expression (if any), whether `captureMultiple` was truthy, and the
      display string. */
  datatype Rule = Rule(
    short: Option<Pattern>, long: Option<Pattern>, cm: Option<Pattern>, cmSet: bool,
    group: string, multiple: bool, stopParse: bool, values: Defaults,
    humanReadable: string, help: Option<string>, hidden: Option<bool>)

  /** Instance options. `separator` is the character the arguments are
      joined with and that `\s` stands for in the patterns. */
  datatype Options = Options(
    longShortDelimiter: string, paramDescriptionSpacer: char, prePaddingSpaces: int,
    alignLongIfNoShort: nat, exitOnStop: bool, separator: char)

  const DefaultOptions := Options("\n", '.', 2, 4, false, ' ')

  const DefaultGroup := "_"

  datatype FormKind = Short | Long

  datatype SetupError = MissingForms(id: string) | Unsupported(id: string, form: FormKind, typeName: string)

  // ---------------------------------------------------------------------
  // Display strings

  /** Length of the leading `(?<name>body)` group of `s`, with `name` a
      non-empty run of word characters and `body` free of `)`, together
      with `name`. */
  function CaptureAt(s: string): (r: Option<(string, nat)>)
    ensures r.Some? ==> 0 < r.value.1 <= |s| && s[0] == '('
    ensures r.Some? ==> |r.value.0| + 5 <= r.value.1
  {
    if |s| < 3 || s[..3] != "(?<" then None
    else
      var e := RunEnd(s, 3, WordPlus({}));
      if e == 3 || e == |s| || s[e] != '>' then None
      else
        var c := RunEnd(s, e + 1, AllBut({')'}));
        if c == |s| then None else Some((s[3..e], c + 1))
  }

  /** `src.replace(/\(\?<(\w+)>[^)]*\)/g, '<$1>')`. */
  function ReplaceCaptures(s: string): (r: string)
    ensures |r| <= |s|
    decreases |s|
  {
    if |s| == 0 then ""
    else match CaptureAt(s)
      case Some((name, n)) => "<" + name + ">" + ReplaceCaptures(s[n..])
      case None => [s[0]] + ReplaceCaptures(s[1..])
  }

  /** `s.replace(/c/g, '')`. */
  function DeleteChar(s: string, c: char): (r: string)
    ensures |r| <= |s|
    ensures c !in r
    ensures forall x :: x in r ==> x in s
  {
    if |s| == 0 then "" else if s[0] == c then DeleteChar(s[1..], c) else [s[0]] + DeleteChar(s[1..], c)
  }

  lemma {:induction false} DeleteAbsent(s: string, c: char)
    requires c !in s
    ensures DeleteChar(s, c) == s
  {
    if |s| > 0 {
      DeleteAbsent(s[1..], c);
      assert [s[0]] + s[1..] == s;
    }
  }

  /** Deleting a character works piecewise: the kept characters of `a`
      come first, in order, then those of `b`. */
  lemma {:induction false} DeleteCharAppend(a: string, b: string, c: char)
    ensures DeleteChar(a + b, c) == DeleteChar(a, c) + DeleteChar(b, c)
    decreases |a|
  {
    if |a| == 0 {
      assert a + b == b;
    } else {
      assert (a + b)[0] == a[0];
      assert (a + b)[1..] == a[1..] + b;
      DeleteCharAppend(a[1..], b, c);
    }
  }

  /** One character is dropped when it is `c` and kept otherwise. */
  lemma DeleteCharOne(x: char, c: char)
    ensures DeleteChar([x], c) == if x == c then "" else [x]
  {
    assert [x][1..] == "";
  }

  /** The display form of one pattern source: named groups shown as
      `<name>`, slashes removed. */
  function HumanReadable(src: string): (r: string)
    ensures '/' !in r
  {
    DeleteChar(ReplaceCaptures(src), '/')
  }

  /** No `(?<` occurs in `s`, so no named group starts anywhere in it;
      plain parentheses such as `sh(ell)?` may occur. */
  predicate OpensNoGroup(s: string) {
    forall i :: 0 <= i < |s| - 2 && s[i] == '(' ==> s[i + 1] != '?' || s[i + 2] != '<'
  }

  /** A character that does not open a group is kept, and the rest is
      rewritten on its own: any character other than `(`, and a `(` not
      followed by `?<`. */
  lemma ReplaceCapturesStep(x: char, s: string)
    requires x != '(' || |s| < 2 || s[0] != '?' || s[1] != '<'
    ensures ReplaceCaptures([x] + s) == [x] + ReplaceCaptures(s)
  {
    var t := [x] + s;
    assert t[1..] == s;
    if |t| >= 3 {
      var open := "(?<";
      if x != '(' {
        assert t[..3][0] != open[0];
      } else if s[0] != '?' {
        assert t[..3][1] != open[1];
      } else {
        assert t[..3][2] != open[2];
      }
    }
  }

  /** A source in which no named group starts is kept as written. */
  lemma {:induction false} ReplaceCapturesPlain(s: string)
    requires OpensNoGroup(s)
    ensures ReplaceCaptures(s) == s
    decreases |s|
  {
    if |s| > 0 {
      var x, rest := s[0], s[1..];
      assert s == [x] + rest;
      ReplaceCapturesStep(x, rest);
      forall i | 0 <= i < |rest| - 2 && rest[i] == '('
        ensures rest[i + 1] != '?' || rest[i + 2] != '<'
      {
        assert rest[i] == s[i + 1] && rest[i + 1] == s[i + 2] && rest[i + 2] == s[i + 3];
      }
      ReplaceCapturesPlain(rest);
    }
  }

  /** A source without named groups and slashes is displayed as written. */
  lemma HumanReadablePlain(src: string)
    requires OpensNoGroup(src) && '/' !in src
    ensures HumanReadable(src) == src
  {
    ReplaceCapturesPlain(src);
    DeleteAbsent(src, '/');
  }

  /** Optional parts written with plain parentheses, as in `sh(ell)?` or
      `-[-]?d(ebug)?`, stay in the display. */
  lemma OptionalPartsDisplay(src: string)
    requires src == "sh(ell)?" || src == "-[-]?d(ebug)?"
    ensures HumanReadable(src) == src
  {
    assert OpensNoGroup(src);
    HumanReadablePlain(src);
  }

  /** A group-free prefix is kept as it is. */
  lemma {:induction false} ReplaceCapturesPrefix(a: string, t: string)
    requires '(' !in a
    ensures ReplaceCaptures(a + t) == a + ReplaceCaptures(t)
    decreases |a|
  {
    if |a| == 0 {
      assert a + t == t;
    } else {
      var x, rest := a[0], a[1..];
      assert a == [x] + rest;
      assert x != '(' && '(' !in rest;
      calc {
        ReplaceCaptures(a + t);
        { assert a + t == [x] + (rest + t); }
        ReplaceCaptures([x] + (rest + t));
        { ReplaceCapturesStep(x, rest + t); }
        [x] + ReplaceCaptures(rest + t);
        { ReplaceCapturesPrefix(rest, t); }
        [x] + (rest + ReplaceCaptures(t));
        a + ReplaceCaptures(t);
      }
    }
  }

  /** A leading named group is shown as `<name>` and the rest is rewritten
      on its own. */
  lemma ReplaceCapturesGroup(name: string, body: string, rest: string)
    requires |name| > 0 && forall k :: 0 <= k < |name| ==> IsWordChar(name[k])
    requires ')' !in body
    ensures ReplaceCaptures("(?<" + name + ">" + body + ")" + rest) == "<" + name + ">" + ReplaceCaptures(rest)
  {
    var s := "(?<" + name + ">" + body + ")" + rest;
    var e := 3 + |name|;
    var c := e + 1 + |body|;
    assert s[..3] == "(?<";
    assert forall k :: 3 <= k < e ==> s[k] == name[k - 3];
    assert s[e] == '>';
    assert RunEnd(s, 3, WordPlus({})) == e;
    assert forall k :: e + 1 <= k < c ==> s[k] == body[k - e - 1];
    assert s[c] == ')';
    assert RunEnd(s, e + 1, AllBut({')'})) == c;
    assert s[3..e] == name;
    assert s[c + 1..] == rest;
  }

  /** The display of a source with a named group after a group-free
      prefix: the prefix loses its slashes, the group shows as `<name>`,
      and the rest is displayed on its own. */
  lemma HumanReadableGroup(a: string, name: string, body: string, rest: string)
    requires '(' !in a
    requires |name| > 0 && forall k :: 0 <= k < |name| ==> IsWordChar(name[k])
    requires ')' !in body
    ensures HumanReadable(a + ("(?<" + name + ">" + body + ")") + rest)
              == DeleteChar(a, '/') + ("<" + name + ">") + HumanReadable(rest)
  {
    var g := "(?<" + name + ">" + body + ")";
    var tag := "<" + name + ">";
    var r := ReplaceCaptures(rest);
    assert a + g + rest == a + (g + rest);
    ReplaceCapturesPrefix(a, g + rest);
    ReplaceCapturesGroup(name, body, rest);
    TagKeepsSlashes(name);
    DeleteCharAppend(a, tag + r, '/');
    DeleteCharAppend(tag, r, '/');
  }

  /** `<name>` holds no slash for a name of word characters. */
  lemma TagKeepsSlashes(name: string)
    requires forall k :: 0 <= k < |name| ==> IsWordChar(name[k])
    ensures DeleteChar("<" + name + ">", '/') == "<" + name + ">"
  {
    forall k | 0 <= k < |name| ensures name[k] != '/' {
      assert IsWordChar(name[k]);
    }
    assert '/' !in "<" + name + ">";
    DeleteAbsent("<" + name + ">", '/');
  }

  /** The display of a present form. */
  function FormDisplay(f: FormDef): seq<string> {
    match f
    case Text(src, _) => [HumanReadable(src)]
    case Compiled(src, _) => [HumanReadable(src)]
    case _ => []
  }

  /** `humanReadableArray.join(delimiter)` for an array of at most two entries. */
  function JoinDisplays(parts: seq<string>, delim: string): (r: string)
    requires |parts| <= 2
    ensures |parts| == 1 ==> r == parts[0]
    ensures |parts| == 2 ==> |r| == |parts[0]| + |delim| + |parts[1]|
    ensures |parts| == 2 ==> r[..|parts[0]|] == parts[0] && r[|parts[0]| + |delim|..] == parts[1]
  {
    if |parts| == 0 then "" else if |parts| == 1 then parts[0] else parts[0] + delim + parts[1]
  }

  /** The rule's display string: the given one, or the joined form
      displays; a rule without a short form is shifted right. */
  function Display(d: RuleDef, opts: Options): (r: string)
    ensures d.short.Absent? ==> |r| >= opts.alignLongIfNoShort && r[..opts.alignLongIfNoShort] == Repeat(' ', opts.alignLongIfNoShort)
    ensures !d.short.Absent? && d.humanReadable.Some? ==> r == d.humanReadable.value
  {
    var joined := match d.humanReadable
      case Some(h) => h
      case None => JoinDisplays(FormDisplay(d.short) + FormDisplay(d.long), opts.longShortDelimiter);
    if d.short.Absent? then Repeat(' ', opts.alignLongIfNoShort) + joined else joined
  }

  /** A long-only rule without its own display string shows its long form
      after exactly `alignLongIfNoShort` spaces. */
  lemma LongOnlyDisplay(d: RuleDef, opts: Options)
    requires d.short.Absent? && d.humanReadable.None? && (d.long.Text? || d.long.Compiled?)
    ensures Display(d, opts) == Repeat(' ', opts.alignLongIfNoShort) + HumanReadable(d.long.src)
  {
  }

  /** A rule with both forms and no display string of its own shows the
      short form's display, the delimiter, then the long form's. */
  lemma TwoFormDisplay(d: RuleDef, opts: Options)
    requires (d.short.Text? || d.short.Compiled?) && (d.long.Text? || d.long.Compiled?)
    requires d.humanReadable.None?
    ensures Display(d, opts) == HumanReadable(d.short.src) + opts.longShortDelimiter + HumanReadable(d.long.src)
  {
    assert FormDisplay(d.short) + FormDisplay(d.long) == [HumanReadable(d.short.src), HumanReadable(d.long.src)];
  }

  /** A rule with only a short form and no display string of its own shows
      that form's display alone. */
  lemma ShortOnlyDisplay(d: RuleDef, opts: Options)
    requires (d.short.Text? || d.short.Compiled?) && d.long.Absent? && d.humanReadable.None?
    ensures Display(d, opts) == HumanReadable(d.short.src)
  {
    assert FormDisplay(d.short) + FormDisplay(d.long) == [HumanReadable(d.short.src)];
  }

  /** A long-only rule with its own display string shows it after exactly
      `alignLongIfNoShort` spaces. */
  lemma LongOnlyGiven(d: RuleDef, opts: Options)
    requires d.short.Absent? && d.humanReadable.Some?
    ensures Display(d, opts) == Repeat(' ', opts.alignLongIfNoShort) + d.humanReadable.value
  {
  }

  // ---------------------------------------------------------------------
  // Normalisation

  /** The expression of `captureMultiple`, once a string has been compiled. */
  function CmPattern(c: CmDef): Option<Pattern> {
    match c
    case CmText(p) => Some(p)
    case CmCompiled(p) => Some(p)
    case _ => None
  }

  /** Whether the `captureMultiple` property is truthy. */
  predicate CmTruthy(c: CmDef) {
    c.CmText? || c.CmCompiled? || (c.CmOther? && c.truthy)
  }

  /** A string form becomes `\s*P(\s|$)`, or `P` itself when the rule has
      a capture-multiple expression; a RegExp is kept. */
  function CompileForm(f: FormDef, c: CmDef): (r: Option<Pattern>)
    ensures r.Some? <==> f.Text? || f.Compiled?
    ensures f.Text? && CmPattern(c).None? ==> r == Some([Seps] + f.pat + [SepOrEnd])
    ensures f.Text? && CmPattern(c).Some? ==> r == Some(f.pat)
  {
    match f
    case Text(_, p) => if CmPattern(c).Some? then Some(p) else Some(Wrap(p))
    case Compiled(_, p) => Some(p)
    case _ => None
  }

  /** What `set` accepts: at least one form, and each form a string or an expression. */
  predicate Acceptable(d: RuleDef) {
    !(d.short.Absent? && d.long.Absent?) && !d.short.OtherType? && !d.long.OtherType?
  }

  function Normalize(id: string, d: RuleDef, opts: Options): (r: Result<Rule, SetupError>)
    ensures r.Success? <==> Acceptable(d)
    ensures r.Failure? && d.short.Absent? && d.long.Absent? ==> r.error == MissingForms(id)
    ensures r.Failure? && !(d.short.Absent? && d.long.Absent?) && d.short.OtherType? ==>
              r.error == Unsupported(id, Short, d.short.typeName)
    ensures r.Failure? && !(d.short.Absent? && d.long.Absent?) && !d.short.OtherType? ==>
              r.error == Unsupported(id, Long, d.long.typeName)
    ensures r.Success? ==> r.value.short.Some? == !d.short.Absent? && r.value.long.Some? == !d.long.Absent?
    ensures r.Success? ==> r.value.group == d.group.GetOr(DefaultGroup)
    ensures r.Success? ==>
              && r.value.short == CompileForm(d.short, d.captureMultiple)
              && r.value.long == CompileForm(d.long, d.captureMultiple)
              && r.value.humanReadable == Display(d, opts)
  {
    if d.short.Absent? && d.long.Absent? then Failure(MissingForms(id))
    else if d.short.OtherType? then Failure(Unsupported(id, Short, d.short.typeName))
    else if d.long.OtherType? then Failure(Unsupported(id, Long, d.long.typeName))
    else
      Success(Rule(
        CompileForm(d.short, d.captureMultiple), CompileForm(d.long, d.captureMultiple),
        CmPattern(d.captureMultiple), CmTruthy(d.captureMultiple),
        d.group.GetOr(DefaultGroup), d.multiple, d.stopParse, d.values,
        Display(d, opts), d.help, d.hidden))
  }

  // ---------------------------------------------------------------------
  // Groups

  datatype Member = Member(help: Option<string>, humanReadable: string, hidden: Option<bool>)

  datatype Group = Group(members: seq<Member>, padding: nat, prepadding: int)

  /** The width a display string needs: its first line, or its second
      line when there is one and it is longer. */
  function MaxLineLength(h: string): (n: nat)
    ensures n >= |FirstLine(h)|
    ensures SecondLine(h).Some? ==> n >= |SecondLine(h).value|
    ensures n == |FirstLine(h)| || (SecondLine(h).Some? && n == |SecondLine(h).value|)
  {
    match SecondLine(h)
    case Some(l) => if |l| > |FirstLine(h)| then |l| else |FirstLine(h)|
    case None => |FirstLine(h)|
  }

  /** Every member's display fits the group's padding. */
  predicate Covers(g: Group) {
    forall i :: 0 <= i < |g.members| ==> MaxLineLength(g.members[i].humanReadable) <= g.padding
  }

  /** Appending a member: the padding grows to one past the member's
      width when it does not fit, and never shrinks. */
  function AddMember(g: Group, m: Member): (r: Group)
    ensures r.members == g.members + [m] && r.prepadding == g.prepadding
    ensures r.padding >= g.padding && r.padding >= MaxLineLength(m.humanReadable)
    ensures MaxLineLength(m.humanReadable) <= g.padding ==> r.padding == g.padding
    ensures g.padding < MaxLineLength(m.humanReadable) ==> r.padding == MaxLineLength(m.humanReadable) + 1
    ensures Covers(g) ==> Covers(r)
  {
    var w := MaxLineLength(m.humanReadable);
    Group(g.members + [m], if g.padding < w then w + 1 else g.padding, g.prepadding)
  }

  /** Width of the line `padEnd` pads: the second line when there are
      several, else the only one. */
  function LastLineLength(str: string): nat {
    match SecondLine(str)
    case Some(l) => |l|
    case None => |FirstLine(str)|
  }

  /** The `padEnd` help filter: pads the entry with `fill` so that the
      line it measures ends one past `padding`, then indents the whole
      entry by `prepadding` spaces. */
  function PadEnd(str: string, padding: int, prepadding: int, fill: char): (r: string)
    ensures var pre := if prepadding > 0 then prepadding else 0;
            && |r| >= pre + |str|
            && (forall i :: 0 <= i < pre ==> r[i] == ' ')
            && r[pre..pre + |str|] == str
            && (forall i :: pre + |str| <= i < |r| ==> r[i] == fill)
    ensures var pre := if prepadding > 0 then prepadding else 0;
            LastLineLength(str) <= padding ==> |r| == pre + |str| + padding - LastLineLength(str) + 1
  {
    var target := padding + |str| - LastLineLength(str) + 1;
    var output := if target > |str| then str + Repeat(fill, target - |str|) else str;
    Repeat(' ', if prepadding > 0 then prepadding else 0) + output
  }

  /** In a group whose padding covers its members, every one-line entry
      is padded to the same width, so the help texts line up. */
  lemma PadEndAligns(g: Group, i: nat, fill: char)
    requires Covers(g) && i < |g.members|
    requires '\n' !in g.members[i].humanReadable
    ensures var pre := if g.prepadding > 0 then g.prepadding else 0;
            |PadEnd(g.members[i].humanReadable, g.padding, g.prepadding, fill)| == pre + g.padding + 1
  {
    var h := g.members[i].humanReadable;
    assert IndexOf(h, '\n') == |h|;
    assert FirstLine(h) == h;
  }

  /** A two-line entry keeps its first line and has its second line padded
      to one past the group's padding. */
  lemma PadEndTwoLines(a: string, b: string, padding: int, prepadding: int, fill: char)
    requires '\n' !in a && '\n' !in b && |b| <= padding
    ensures var pre := if prepadding > 0 then prepadding else 0;
            PadEnd(a + "\n" + b, padding, prepadding, fill)
              == Repeat(' ', pre) + a + "\n" + b + Repeat(fill, padding - |b| + 1)
  {
    var s := a + "\n" + b;
    LinesOf(a, b);
    assert LastLineLength(s) == |b|;
    var pre := if prepadding > 0 then prepadding else 0;
    var r := PadEnd(s, padding, prepadding, fill);
    var lead, tail := Repeat(' ', pre), Repeat(fill, padding - |b| + 1);
    var want := lead + s + tail;
    assert |r| == |want|;
    forall k | 0 <= k < |r| ensures r[k] == want[k] {
      if k >= pre + |s| {
        assert want[k] == tail[k - pre - |s|];
      } else if k >= pre {
        assert r[k] == r[pre..pre + |s|][k - pre];
      }
    }
    assert lead + a + "\n" + b + tail == want;
  }

  /** `split('\n')` of `a + "\n" + b` with two newline-free lines. */
  lemma LinesOf(a: string, b: string)
    requires '\n' !in a && '\n' !in b
    ensures FirstLine(a + "\n" + b) == a
    ensures SecondLine(a + "\n" + b) == Some(b)
  {
    var s := a + "\n" + b;
    assert s == a + ("\n" + b);
    IndexOfFirst(a, "\n" + b);
    assert s[..|a|] == a;
    assert s[|a| + 1..] == b;
    IndexOfFirst(b, "");
    assert b + "" == b;
  }

  lemma {:induction false} IndexOfFirst(a: string, t: string)
    requires '\n' !in a && (|t| > 0 ==> t[0] == '\n')
    ensures IndexOf(a + t, '\n') == |a|
  {
    if |a| > 0 {
      assert (a + t)[1..] == a[1..] + t;
      IndexOfFirst(a[1..], t);
    }
  }

  // ---------------------------------------------------------------------
  // The registry

  /** `params` and `groups`, with their key orders. */
  datatype RuleSet = RuleSet(
    ids: seq<string>, params: map<string, Rule>,
    groupNames: seq<string>, groups: map<string, Group>)

  predicate Distinct(xs: seq<string>) {
    forall i, j :: 0 <= i < j < |xs| ==> xs[i] != xs[j]
  }

  ghost predicate Valid(reg: RuleSet) {
    && Distinct(reg.ids) && (forall id :: id in reg.params <==> id in reg.ids)
    && Distinct(reg.groupNames) && (forall g :: g in reg.groups <==> g in reg.groupNames)
    && (forall id :: id in reg.params ==> reg.params[id].group in reg.groups)
    && (forall g :: g in reg.groups ==> Covers(reg.groups[g]))
  }

  const EmptyRuleSet := RuleSet([], map[], [], map[])

  lemma EmptyValid()
    ensures Valid(EmptyRuleSet)
  {
  }

  /** The group a new rule goes to: the existing one, or a fresh empty one. */
  function GroupFor(reg: RuleSet, name: string, opts: Options): Group {
    if name in reg.groups then reg.groups[name] else Group([], 0, opts.prePaddingSpaces)
  }

  /** `set(id, d)`. On failure nothing is registered; on success the rule
      is stored under `id` (a new id goes last, an existing one keeps its
      place), its display entry is appended to its group, and a new group
      goes last. */
  function SetSpec(reg: RuleSet, id: string, d: RuleDef, opts: Options): (r: Result<RuleSet, SetupError>)
    ensures r.Success? <==> Acceptable(d)
    ensures r.Failure? ==> r.error == Normalize(id, d, opts).error
    ensures r.Success? ==> id in r.value.params && r.value.params[id] == Normalize(id, d, opts).value
    ensures r.Success? ==> forall k :: k in reg.params && k != id ==> k in r.value.params && r.value.params[k] == reg.params[k]
    ensures r.Success? ==> r.value.ids == (if id in reg.params then reg.ids else reg.ids + [id])
  {
    match Normalize(id, d, opts)
    case Failure(e) => Failure(e)
    case Success(rule) => Success(Insert(reg, id, rule, opts))
  }

  /** Storing a normalised rule: the rule goes under `id` and its display
      entry at the end of its group. */
  function Insert(reg: RuleSet, id: string, rule: Rule, opts: Options): (r: RuleSet)
    ensures r.params.Keys == reg.params.Keys + {id} && r.params[id] == rule
    ensures r.groups.Keys == reg.groups.Keys + {rule.group}
  {
    var g := rule.group;
    var names := if g in reg.groups then reg.groupNames else reg.groupNames + [g];
    var ids := if id in reg.params then reg.ids else reg.ids + [id];
    var entry := Member(rule.help, rule.humanReadable, rule.hidden);
    RuleSet(ids, reg.params[id := rule], names, reg.groups[g := AddMember(GroupFor(reg, g, opts), entry)])
  }

  /** `set` files the rule's display entry at the end of its group, whose
      padding does not shrink; a new group goes last, other groups are
      untouched. */
  lemma SetGroups(reg: RuleSet, id: string, d: RuleDef, opts: Options)
    requires Acceptable(d)
    ensures
      var r := SetSpec(reg, id, d, opts).value;
      var g := r.params[id].group;
      && g in r.groups
      && r.groups[g].members == GroupFor(reg, g, opts).members + [Member(d.help, r.params[id].humanReadable, d.hidden)]
      && r.groups[g].padding >= GroupFor(reg, g, opts).padding
      && r.groups[g].padding >= MaxLineLength(r.params[id].humanReadable)
      && r.groups[g].padding ==
           (var w := MaxLineLength(r.params[id].humanReadable);
            if GroupFor(reg, g, opts).padding < w then w + 1 else GroupFor(reg, g, opts).padding)
      && r.groupNames == (if g in reg.groups then reg.groupNames else reg.groupNames + [g])
      && (forall h :: h in reg.groups && h != g ==> h in r.groups && r.groups[h] == reg.groups[h])
  {
  }

  /** `set` keeps the registry well formed: ids and group names stay
      distinct and in step with their maps, and every group's padding
      still covers all of its members. */
  lemma SetValid(reg: RuleSet, id: string, d: RuleDef, opts: Options)
    requires Valid(reg) && Acceptable(d)
    ensures Valid(SetSpec(reg, id, d, opts).value)
  {
    InsertValid(reg, id, Normalize(id, d, opts).value, opts);
  }

  lemma InsertValid(reg: RuleSet, id: string, rule: Rule, opts: Options)
    requires Valid(reg)
    ensures Valid(Insert(reg, id, rule, opts))
  {
    var r := Insert(reg, id, rule, opts);
    var g := rule.group;
    assert Covers(GroupFor(reg, g, opts));
    assert Distinct(r.ids) by {
      if id !in reg.params {
        forall i, j | 0 <= i < j < |r.ids| ensures r.ids[i] != r.ids[j] {
          if j == |reg.ids| { assert reg.ids[i] in reg.params; }
        }
      }
    }
    assert Distinct(r.groupNames) by {
      if g !in reg.groups {
        forall i, j | 0 <= i < j < |r.groupNames| ensures r.groupNames[i] != r.groupNames[j] {
          if j == |reg.groupNames| { assert reg.groupNames[i] in reg.groups; }
        }
      }
    }
  }

  /** The registry `setup` leaves and the error it stopped at, if any. */
  datatype Outcome = Outcome(reg: RuleSet, error: Option<SetupError>)

  function SetupSpec(reg: RuleSet, defs: seq<(string, RuleDef)>, opts: Options): (r: Outcome)
    ensures reg.params.Keys <= r.reg.params.Keys
    ensures reg.ids <= r.reg.ids
    ensures r.error.None? ==> forall i :: 0 <= i < |defs| ==> defs[i].0 in r.reg.params
    decreases |defs|
  {
    if |defs| == 0 then Outcome(reg, None)
    else match SetSpec(reg, defs[0].0, defs[0].1, opts)
      case Failure(e) => Outcome(reg, Some(e))
      case Success(next) =>
        var r := SetupSpec(next, defs[1..], opts);
        assert forall i :: 1 <= i < |defs| ==> defs[i] == defs[1..][i - 1];
        r
  }

  lemma {:induction false} SetupValid(reg: RuleSet, defs: seq<(string, RuleDef)>, opts: Options)
    requires Valid(reg)
    ensures Valid(SetupSpec(reg, defs, opts).reg)
    decreases |defs|
  {
    if |defs| > 0 && Acceptable(defs[0].1) {
      SetValid(reg, defs[0].0, defs[0].1, opts);
      SetupValid(SetSpec(reg, defs[0].0, defs[0].1, opts).value, defs[1..], opts);
    }
  }

  /** `setup` succeeds exactly when every definition is acceptable. */
  lemma {:induction false} SetupSucceeds(reg: RuleSet, defs: seq<(string, RuleDef)>, opts: Options)
    ensures SetupSpec(reg, defs, opts).error.None? <==> forall i :: 0 <= i < |defs| ==> Acceptable(defs[i].1)
    decreases |defs|
  {
    if |defs| > 0 {
      match SetSpec(reg, defs[0].0, defs[0].1, opts)
      case Failure(_) =>
      case Success(next) =>
        SetupSucceeds(next, defs[1..], opts);
        assert forall i :: 1 <= i < |defs| ==> defs[i] == defs[1..][i - 1];
    }
  }

  /** On failure `setup` has registered exactly the definitions before the
      first unacceptable one, and reports that one's error. */
  lemma {:induction false} SetupStopsAtFirstFailure(reg: RuleSet, defs: seq<(string, RuleDef)>, opts: Options, k: nat)
    requires k < |defs| && !Acceptable(defs[k].1)
    requires forall i :: 0 <= i < k ==> Acceptable(defs[i].1)
    ensures SetupSpec(reg, defs, opts).reg == SetupSpec(reg, defs[..k], opts).reg
    ensures SetupSpec(reg, defs[..k], opts).error.None?
    ensures SetupSpec(reg, defs, opts).error == Some(Normalize(defs[k].0, defs[k].1, opts).error)
    decreases k
  {
    if k > 0 {
      var next := SetSpec(reg, defs[0].0, defs[0].1, opts).value;
      assert defs[..k][0] == defs[0];
      assert defs[..k][1..] == defs[1..][..k - 1];
      SetupStopsAtFirstFailure(next, defs[1..], opts, k - 1);
    }
  }
}

=== FILE: scenarios.dfy ===
/** The command-line example of a registry holding one flag rule: the
    leading flag word is consumed and the rest of the line comes back. */
module Scenarios {
  import opened Common
  import opened Patterns
  import opened Registry
  import opened Engine
  import opened ParseProperties

  /** `r` is a flag rule given only a long form, the string `w`, which
      `set` compiles to `\s*w(\s|$)`. */
  predicate LongFlag(r: Rule, w: string) {
    r.short.None? && r.long == Some(Wrap(LitPattern(w))) && r.cm.None? && !r.stopParse
  }

  /** The answer of such a rule once `w` and a separator were matched. */
  function Matched(w: string, sep: char): Entry {
    Entry(Flag(true), Some(MatchRecord(0, w + [sep], w + [sep])))
  }

  /** The flag at the head of the text is matched with its separator. */
  lemma FlagCheck(r: Rule, w: string, rest: string, sep: char)
    requires LongFlag(r, w) && |w| > 0 && sep !in w
    ensures CheckArgSpec(r, w + [sep] + rest, 0, ResetEntry(r), Greedy(sep)) == Scan(rest, Matched(w, sep), true)
  {
    var args := w + [sep] + rest;
    var exec := Greedy(sep);
    GreedySound(sep);
    FlagMatchesLeadingToken(w, rest, sep);
    var m := Match(0, w + [sep], []);
    var (e2, f2) := Accept(r, ResetEntry(r), m, true);
    RunFormAcceptsLast(r, r.long.value, false, args, 0, ResetEntry(r), true, false, exec, m, e2, f2);
    assert args[|w| + 1..] == rest;
  }

  /** A text without the word leaves the flag's answer as it is. */
  lemma FlagCheckAbsent(r: Rule, w: string, t: string, sep: char)
    requires LongFlag(r, w) && WordAbsent(t, w)
    ensures CheckArgSpec(r, t, 0, Matched(w, sep), Greedy(sep)) == Scan(t, Matched(w, sep), false)
  {
    GreedySound(sep);
    AbsentWordNoMatch(w, t, sep);
    RunFormStops(r, r.long.value, false, t, 0, Matched(w, sep), true, false, Greedy(sep));
  }

  /** The registry holds the one flag rule `id`, for the word `w`. */
  ghost predicate OnlyFlag(reg: RuleSet, id: string, w: string) {
    Parsable(reg) && reg.ids == [id] && id in reg.params && LongFlag(reg.params[id], w)
  }

  /** The first pass over `w`, a separator and `t` sets the flag and
      removes the word with its separator. */
  lemma FirstPass(reg: RuleSet, id: string, w: string, t: string, sep: char)
    requires OnlyFlag(reg, id, w) && KeysListed(reg) && |w| > 0 && sep !in w
    ensures Pass(reg, ResetState(reg), w + [sep] + t, 1, Greedy(sep)) == (ResetState(reg)[id := Matched(w, sep)], t)
  {
    GreedySound(sep);
    var args := w + [sep] + t;
    FlagCheck(reg.params[id], w, t, sep);
    assert args[..|w| + 1] == w + [sep];
    ReplaceFirstPrefix(args, w + [sep]);
    assert args[|w| + 1..] == t;
  }

  /** A pass over a text without the word changes nothing. */
  lemma LaterPass(reg: RuleSet, id: string, w: string, t: string, sep: char)
    requires OnlyFlag(reg, id, w) && KeysListed(reg)
    requires WordAbsent(t, w)
    ensures var a := ResetState(reg)[id := Matched(w, sep)];
            Pass(reg, a, t, 1, Greedy(sep)) == (a, t)
  {
    GreedySound(sep);
    FlagCheckAbsent(reg.params[id], w, t, sep);
    var a := ResetState(reg)[id := Matched(w, sep)];
    assert a[id := Matched(w, sep)] == a;
  }

  /** The passes over `w`, a separator and `t`: the first sets the flag
      and removes the word with its separator, the second finds nothing
      and `t` comes back. */
  lemma ConvergeFlag(reg: RuleSet, id: string, w: string, t: string, sep: char)
    requires OnlyFlag(reg, id, w) && KeysListed(reg) && |w| > 0 && sep !in w
    requires WordAbsent(t, w)
    requires CleanEnds(t, sep)
    ensures Converge(reg, ResetState(reg), w + [sep] + t, Greedy(sep), sep) == (ResetState(reg)[id := Matched(w, sep)], t)
  {
    GreedySound(sep);
    var a1 := ResetState(reg)[id := Matched(w, sep)];
    FirstPass(reg, id, w, t, sep);
    TrimClean(t, sep);
    LaterPass(reg, id, w, t, sep);
    assert Converge(reg, a1, t, Greedy(sep), sep) == (a1, t);
  }

  /** `parse(tokens)` with only the flag `w` registered and `w` as the
      first token: the flag is set, nothing remains, and the other tokens
      come back joined, when they are non-empty, free of the separator and
      do not contain `w`. */
  lemma LeadingFlagThenRest(reg: RuleSet, opts: Options, id: string, w: string, tokens: seq<string>)
    requires OnlyFlag(reg, id, w)
    requires |w| > 0 && opts.separator !in w
    requires |tokens| > 1 && tokens[0] == w
    requires CleanTokens(tokens[1..], opts.separator)
    requires WordAbsent(Join(tokens[1..], opts.separator), w)
    ensures ParseSpec(reg, opts, Greedy(opts.separator), tokens) ==
            ParseResult(ResetState(reg)[id := Matched(w, opts.separator)], "", Join(tokens[1..], opts.separator))
  {
    var sep := opts.separator;
    GreedySound(sep);
    assert NoStopRules(reg) by {
      forall y | y in reg.params ensures !reg.params[y].stopParse {
        assert y in reg.ids;
      }
    }
    ParseWithoutStops(reg, opts, Greedy(sep), tokens);
    var rest := tokens[1..];
    assert Join(tokens, sep) == w + [sep] + Join(rest, sep);
    JoinEnds(rest, sep);
    ConvergeFlag(reg, id, w, Join(rest, sep), sep);
  }

  /** The tokens `foo` and `api` are clean and join to `foo api`, in
      which `list` does not occur. */
  lemma FooApiFacts()
    ensures CleanTokens(["foo", "api"], ' ')
    ensures Join(["foo", "api"], ' ') == "foo api"
    ensures WordAbsent(Join(["foo", "api"], ' '), "list")
  {
    var t := Join(["foo", "api"], ' ');
    assert t == "foo api";
    AbsentFirstChar(t, "list");
  }

  /** With the flag `list` registered, `['list', 'foo', 'api']` leaves
      `'foo api'`. */
  lemma ListFooApi(reg: RuleSet, id: string)
    requires OnlyFlag(reg, id, "list")
    ensures ParseSpec(reg, DefaultOptions, Greedy(' '), ["list", "foo", "api"]).rest == "foo api"
  {
    var tokens := ["list", "foo", "api"];
    assert tokens[1..] == ["foo", "api"];
    FooApiFacts();
    LeadingFlagThenRest(reg, DefaultOptions, id, "list", tokens);
  }
}
